=== FILE: README.md ===
# SuzyApp narration back end and content preflight, in Dafny

This project models two parts of the SuzyApp repository and proves properties about them.

**Cloud functions** (`functions/src/index.ts`). Two HTTP handlers share the same steps:

- the caller is authenticated with a `Bearer` token;
- a per-user, per-action rate limiter runs inside a Firestore transaction;
- the body is validated;
- the external voice service (ElevenLabs) is called.

`generateNarration` turns a page of story text into speech. First it looks in the user's `personalized_audio` document for a URL already stored for that page. If there is none, it synthesizes the audio, checks its size, saves it under a per-user storage path and records the signed URL. `parentVoiceCreate` uploads a parent's voice sample and saves the returned voice id. Every thrown error ends in the same catch. It answers with the error's numeric `status`, or 500 when there is none, and with the error's message, or "Server error" when there is none.

**Content preflight** (`tools/preflight_content_check.py`). This script walks the colouring pages listed in `coloring_pages.json`. For each page it:

- derives the page id, falling back to `row_<i>`, and warns on duplicates;
- reports a blank outline path or mask path;
- checks each path, as a URL if it is remote and as a normalised `assets/...` file if it is local;
- for a mask, judges the decoded image. Semi-transparent alpha values, no opaque region, too few or too many colours, opaque black and tiny regions each raise an issue.

Last, it summarises the issues and exits with 1 exactly when some issue is an ERROR.

## How the model is organised

The modules follow the source's structure:

- `Common`: Option and Result, and sequence helpers.
- `Text`: whitespace trimming, ASCII lower-casing and decimal rendering.
- `Http`: JSON values, responses and the catch fallback.
- `Auth`: the bearer-header parse and token verification.
- `RateLimit`: the transaction as a pure `Transition`, plus a `CounterStore` class whose `Admit` method updates the stored counter in place.
- `Narration`: `generateNarration`.
- `ParentVoice`: `parentVoiceCreate`.
- `Issues`: issue levels, messages, counting and the exit code.
- `AssetPaths`: `is_remote`, `normalize_local_asset` and `collect_paths`. The normalisation is a specification function plus a `while`-loop method proved equal to it.
- `MaskCheck`: `check_mask`, as a function plus a method that appends to the issue list.
- `Preflight`: `check_exists_nonempty`, `check_url` and `run`. `Run` is a method that loops over the pages with a seen-id set and is proved equal to the report function.

External effects are parameters. These are:

- the identity service (`verify`);
- the clock (`now`);
- the stored documents;
- the text-to-speech and voice-service replies;
- the signed URL;
- the decoded sample size;
- the file system (a map from path to file state, including the decoded mask image);
- the HEAD-request outcomes (`probes`).

Issue messages are a `Message` datatype with one constructor per message the script writes. `Issues.Render` gives each message's exact text.

## Model

| member | source | states |
|---|---|---|
| Text.Trim | tools/preflight_content_check.py:55 | the result has no leading or trailing whitespace and is no longer than the input |
| Text.TrimDropsOnlySpace | tools/preflight_content_check.py:55 | the trimmed string occurs inside the input, at the position where the leading whitespace ends, and everything dropped is whitespace |
| Text.TrimOfTrimmed | tools/preflight_content_check.py:55 | trimming a string that has no outer whitespace leaves it unchanged |
| Text.TrimIdempotent | tools/preflight_content_check.py:55 | trimming twice is the same as trimming once |
| Text.Lower | functions/src/index.ts:35 | lower-casing keeps the length and maps each character through the ASCII lower-case table |
| Text.LowerIdempotent | functions/src/index.ts:35 | lower-casing twice is the same as lower-casing once |
| Text.TrimLowerCommute | functions/src/index.ts:35 | trimming and lower-casing can be done in either order |
| Text.NatToStringInjective | tools/preflight_content_check.py:206 | distinct row indices render to distinct decimal strings |
| Http.CatchResponse | functions/src/index.ts:199-203 | the catch answers with the error's status when it has one and 500 otherwise, and with its message when that is non-empty and "Server error" otherwise |
| Auth.BearerToken | functions/src/index.ts:14-20 | the header matches exactly when it is `Bearer ` followed by a non-empty token with no line terminator; the token is the rest of the header; a failed match throws 401 "Missing bearer token" |
| Auth.BearerTokenRoundTrip | functions/src/index.ts:14-22 | `Bearer ` + token parses back to that token |
| Auth.VerifyFirebaseAuth | functions/src/index.ts:13-31 | yields a uid exactly when the header parses and the identity service accepts the token; the uid is the service's answer; every failure is a 401 |
| RateLimit.Transition | functions/src/index.ts:44-60 | an expired or absent window restarts at count 1 with reset `now + windowMs`; a live window at or over the maximum rejects and leaves the record unchanged; otherwise the count goes up by one and the reset stays |
| RateLimit.AbsentWithinLimit | functions/src/index.ts:46-48 | a missing record counts as zero and is within any limit |
| RateLimit.TransitionKeepsLimit | functions/src/index.ts:50-59 | while the window is live, the stored count never exceeds the maximum (or 1 for a fresh window), and every transition keeps that invariant |
| RateLimit.Replay | functions/src/index.ts:40-61 | over a sequence of calls, no more are admitted than were made |
| RateLimit.ReplayInsideWindow | functions/src/index.ts:50-56 | inside a live window, exactly min(calls, remaining allowance) are admitted and the reset time is unchanged |
| RateLimit.AdmissionsPerWindow | functions/src/index.ts:50-58 | of the calls made within one window opened by the first of them, exactly min(calls, max(maxReq, 1)) are admitted |
| RateLimit.CounterStore.constructor | functions/src/index.ts:41-48 | the store starts with the given counter record |
| RateLimit.CounterStore.Admit | functions/src/index.ts:44-60 | the new stored record and the verdict are those of `Transition` on the old record, and the limit invariant is preserved |
| Narration.NormalizeLang | functions/src/index.ts:33-38 | a language is accepted exactly when the value is a string whose trimmed, lower-cased form is `en` or `te`, and it is that language |
| Narration.NormalizeLangRoundTrip | functions/src/index.ts:33-37 | each language's own code normalises back to it |
| Narration.NormalizeLangCanonical | functions/src/index.ts:35 | normalising a string gives the same answer as normalising its trimmed, lower-cased form |
| Narration.ValidateNarration | functions/src/index.ts:91-127 | the request is accepted exactly when every field check passes. Each failing check gives its own 400 message, in the source's order. A text over 1000 characters gives 413. An accepted request carries the trimmed story id, voice id and text, the page index and the language |
| Narration.CachedAudioUrl | functions/src/index.ts:139-147 | a URL is found exactly when the document exists and its `pages` map has a non-empty string `audioUrl` under the page's decimal key, and it is that string |
| Narration.SaveAudioUrlAsWritten | functions/src/index.ts:186-196 | the save as written leaves the `pages` map untouched and puts the URL in a top-level field literally named `pages.N.audioUrl` |
| Narration.AsWrittenSaveMissesCache | functions/src/index.ts:186-196 | for any document and any page, the lookup after the save as written gives the same answer as before it, so the saved URL is never found |
| Narration.SaveAudioUrl | functions/src/index.ts:186-196 | the corrected save sets the `storyId`, `lang` and `voiceId` fields as the source does. `Narration.CacheRoundTrip` states where the URL goes |
| Narration.CacheRoundTrip | functions/src/index.ts:141-143 | after the corrected save, the page's lookup returns the saved URL and other pages' lookups are unchanged |
| Narration.StoragePath | functions/src/index.ts:176 | the path lies under the user's story folder and ends in `.mp3` |
| Narration.PageFileNameDistinct | functions/src/index.ts:176 | different (page, language) pairs get different file names |
| Narration.StoragePathDistinct | functions/src/index.ts:176 | within one story folder, different (page, language) pairs never overwrite each other's audio |
| Narration.CheckAudio | functions/src/index.ts:169-173 | audio is accepted exactly when it has at least 200 bytes; shorter audio is a 502 |
| Narration.Produce | functions/src/index.ts:129-198 | for either save (as written or corrected): a missing key is a 500 with nothing synthesized; a cached answer is exactly the URL the lookup finds, with `cached: true` and no synthesis; a configured request whose page has a cached URL always gets it; an uncached configured request with audio of at least 200 bytes gets a fresh answer with the signed URL, stores the audio at `StoragePath` for the user, story, page and language, and leaves the document after that save; a non-ok reply or audio under 200 bytes is a 502, and an error thrown by the service call goes through the catch to a 500, both with nothing stored and the document unchanged; the document changes only on a save |
| Narration.GenerateNarration | functions/src/index.ts:84-203 | for either save: synthesis happens only for an authenticated caller and a valid request, with the request's voice and text. An unauthenticated caller gets 401 and the counter is unchanged. An authenticated, admitted caller with a valid request gets exactly `Produce` on the advanced counter, and every audio answer comes that way |
| Narration.InvalidRequestDoesNoWork | functions/src/index.ts:86-127 | an admitted but invalid request gets its rejection with no synthesis and no save; the counter still advances |
| Narration.RateLimitedRequestRejected | functions/src/index.ts:84-86 | a caller over the limit in a live window gets 429, the counter is unchanged and nothing is synthesized |
| Narration.SecondRequestServedFromCache | functions/src/index.ts:135-147 | after a fresh answer has been saved with the corrected save, a later admitted valid request for the same story and page is served from the document with the same URL and no synthesis |
| Narration.FreshAsWrittenAnswerLeavesNoCache | functions/src/index.ts:186-196 | after a fresh answer under the save as written, the document holds no URL for that page |
| Narration.UncachedRequestSynthesizes | functions/src/index.ts:139-149 | an authenticated, admitted, valid request with a configured key whose page has no cached URL calls the synthesizer and is not answered from the cache |
| Narration.AsWrittenRequestSynthesizesAgain | functions/src/index.ts:135-196 | with the save as written, a later admitted valid request for the story and page a fresh answer has just saved calls the synthesizer again and is never a cached answer |
| ParentVoice.VoiceName | functions/src/index.ts:268 | the voice name is the trimmed `name` when that is a non-blank string and "Parent Voice" otherwise; it is never blank |
| ParentVoice.ValidateUpload | functions/src/index.ts:241-265 | an upload is accepted exactly when the sample and content type are non-blank strings, the key is configured and the decoded size is 200 bytes to 12 MiB. Each failure has its own status and message, in the source's order: 400 "Missing audioBase64", 400 for the content type, 500 "Server not configured (missing ELEVENLABS_KEY)", 400 "Audio too short", and 413 exactly for the oversized case |
| ParentVoice.VoiceIdFromReply | functions/src/index.ts:290-296 | a voice id is accepted exactly when the reply's `voice_id` is a non-blank string, and it is then the trimmed id; otherwise the answer is 502 |
| ParentVoice.ParentVoiceCreate | functions/src/index.ts:227-312 | a sample is sent only by an authenticated, admitted caller and only after passing validation. A voice id is saved only when the service returned a voice whose `voice_id` is a non-blank string, and the saved id is that id trimmed; a 200 answer is exactly that id. An unauthenticated caller gets 401 and the counter is unchanged. Conversely, a valid upload from an authenticated, admitted caller is sent; a non-blank `voice_id` in the reply is then saved trimmed and answered with 200, a blank one is a 502 "Invalid response from ElevenLabs", a non-ok reply is a 502 "ElevenLabs voice create failed" with its text, and an error thrown by the service call goes through the catch to a 500; none of these saves anything |
| ParentVoice.RateLimitedVoiceRejected | functions/src/index.ts:228-230 | an authenticated caller over the limit of 3 per hour in a live window gets 429, the counter is unchanged, and nothing is sent or saved |
| ParentVoice.InvalidUploadSendsNothing | functions/src/index.ts:241-265 | an admitted upload that fails validation is answered with exactly that validation's rejection; nothing is sent or saved, and the counter still advances |
| ParentVoice.OversizedSampleNeverSent | functions/src/index.ts:262-265 | a sample over 12 MiB is refused with 413 and never sent |
| Common.SeenStep | tools/preflight_content_check.py:204-210 | adding the current page's id keeps the seen set equal to the set of ids of the pages visited so far |
| Issues.Labelled | tools/preflight_content_check.py:84-91 | a message built from a caption and its subject is non-empty and ends with the subject |
| Issues.WithReason | tools/preflight_content_check.py:107-127 | a message with a reason has its subject right after the caption, then ` (` + reason + `)`, which ends the text |
| Issues.RenderEndsWithPath | tools/preflight_content_check.py:84-131 | the missing-file, not-a-file, empty-file and not-RGBA messages end with their path |
| Issues.RenderEndsWithUrl | tools/preflight_content_check.py:96-105 | the `gs://`, failed-HEAD and failed-GET messages end with their URL |
| Issues.RenderEndsWithSubject | tools/preflight_content_check.py:84-209 | the nine messages whose text ends with a subject (four path messages, three URL messages, the missing directory, the empty audio file, the duplicate page id) end with it |
| Issues.RenderSubjectBeforeReason | tools/preflight_content_check.py:107-127 | the unreachable-URL, failed-URL-check and mask-decode messages print their subject right after the caption, followed by ` (`, the reason or error text, and `)`, which ends the text |
| Issues.CountLevel | tools/preflight_content_check.py:233-234 | the number of issues at a level is at most the number of issues |
| Issues.CountLevelPositive | tools/preflight_content_check.py:233-243 | the count at a level is positive exactly when some issue has that level |
| Issues.CountLevelPartition | tools/preflight_content_check.py:239-242 | the ERROR, WARN and INFO counts add up to the number of issues |
| Issues.ErrorAppend | tools/preflight_content_check.py:201-231 | the concatenation of two issue lists has an ERROR exactly when one of them does |
| Issues.FlattenHasError | tools/preflight_content_check.py:205-229 | the issues of all pages together have an ERROR exactly when some page's issues do |
| Issues.Summarize | tools/preflight_content_check.py:233-242 | the summary gives the ERROR and WARN counts, and the info count is the rest of the issues |
| Issues.ExitCode | tools/preflight_content_check.py:243 | the exit code is 1 exactly when some issue is an ERROR, and 0 otherwise |
| AssetPaths.IsRemoteCanonical | tools/preflight_content_check.py:54-56 | whether a path counts as remote does not depend on surrounding whitespace or letter case |
| AssetPaths.ReplaceChar | tools/preflight_content_check.py:60 | every backslash is replaced by a slash and every other character is kept |
| AssetPaths.ReplaceFirst | tools/preflight_content_check.py:66 | when the pattern is at the front, only that occurrence is replaced; a string without the pattern is unchanged |
| AssetPaths.CollapseDoubled | tools/preflight_content_check.py:65-66 | the collapsed path no longer starts with `assets/assets/` and is a suffix of the input |
| AssetPaths.CollapseStep | tools/preflight_content_check.py:65-66 | each loop step shortens the path and leaves the final collapsed result unchanged |
| AssetPaths.Cleaned | tools/preflight_content_check.py:60-64 | after stripping, replacing backslashes and dropping a leading `/` and `./`, the path has no backslash and no trailing whitespace |
| AssetPaths.NormalizedAsset | tools/preflight_content_check.py:59-69 | the normalised path starts with `assets/` but not `assets/assets/`, has no backslash and no outer whitespace |
| AssetPaths.AssetsPrefixed | tools/preflight_content_check.py:67-68 | prefixing `assets/` when it is missing keeps those properties |
| AssetPaths.CleanedOfNormal | tools/preflight_content_check.py:60-64 | cleaning an already-normalised path leaves it unchanged |
| AssetPaths.NormalizeIdempotent | tools/preflight_content_check.py:59-69 | normalising a normalised path gives it back unchanged |
| AssetPaths.CleanLocalPath | tools/preflight_content_check.py:60-64 | the clean-up statements compute exactly the cleaned path |
| AssetPaths.NormalizeLocalAsset | tools/preflight_content_check.py:59-69 | the `while` loop computes exactly the normalised path |
| AssetPaths.PickField | tools/preflight_content_check.py:195-196 | the path is the trimmed first field when that is truthy, else the trimmed second field when that is truthy, else empty |
| MaskCheck.CountTiny | tools/preflight_content_check.py:168-169 | the tiny-region count is at most the number of colours |
| MaskCheck.CountTinyPositive | tools/preflight_content_check.py:169-170 | the tiny count is positive exactly when some colour has fewer than 24 pixels |
| MaskCheck.AlphaIssues | tools/preflight_content_check.py:134-145 | there is an issue exactly when some alpha value lies strictly between 0 and 255, and it is then the single semi-transparency WARN on the mask's scope carrying the number of such values |
| MaskCheck.ColorIssues | tools/preflight_content_check.py:147-177 | no opaque colour gives exactly the "no opaque regions" ERROR; otherwise at most four WARNs; all are on the mask's scope |
| MaskCheck.ColorVerdicts | tools/preflight_content_check.py:153-177 | the four verdicts (few, many, black, tiny) together |
| MaskCheck.FewColorsVerdict | tools/preflight_content_check.py:153-154 | the "only 1 region" WARN is raised exactly when there is a single opaque colour |
| MaskCheck.ManyColorsVerdict | tools/preflight_content_check.py:155-156 | the high-count WARN is raised exactly when there are more than 80 colours |
| MaskCheck.BlackVerdict | tools/preflight_content_check.py:158-165 | the black-region WARN is raised exactly when an opaque colour is (0, 0, 0) |
| MaskCheck.TinyVerdict | tools/preflight_content_check.py:167-177 | the tiny-region WARN is raised exactly when the tiny count is positive |
| MaskCheck.MaskIssues | tools/preflight_content_check.py:122-177 | every issue of the mask check is on the mask's scope |
| MaskCheck.MaskErrors | tools/preflight_content_check.py:122-151 | the mask check yields an ERROR exactly when the image cannot be decoded, is not RGBA, or has no opaque colour, and that ERROR is the last issue |
| MaskCheck.ScanColors | tools/preflight_content_check.py:158-169 | the loop finds whether any colour is black and counts the tiny ones |
| MaskCheck.AppendColorVerdicts | tools/preflight_content_check.py:153-177 | appends exactly the colour verdicts to the issue list |
| MaskCheck.CheckMask | tools/preflight_content_check.py:122-177 | appends exactly the mask check's issues to the issue list |
| Preflight.RawId | tools/preflight_content_check.py:206 | the raw id is the stripped string form of `id`, so it has no outer whitespace |
| Preflight.PageId | tools/preflight_content_check.py:206 | the page id is the raw id when that is non-blank and `row_<i>` otherwise; it is never empty |
| Preflight.DefaultIdsDistinct | tools/preflight_content_check.py:206 | two pages without an id at different rows get different default ids |
| Preflight.PageIds | tools/preflight_content_check.py:205-206 | there is one id per page |
| Preflight.ExistsIssues | tools/preflight_content_check.py:82-91 | there is no issue exactly when the path exists, is a file and is non-empty; otherwise there is exactly one ERROR on the given scope |
| Preflight.UrlIssues | tools/preflight_content_check.py:94-109 | a `gs://` URL (any case) gets exactly one WARN and no request. Otherwise there is no issue exactly when the HEAD request answered with a status under 400, and any issue is an ERROR |
| Preflight.LocalIssues | tools/preflight_content_check.py:226-229 | the existence check's issues come first, and every issue is on the target's scope |
| Preflight.TargetIssues | tools/preflight_content_check.py:218-229 | every issue of one path is on `scope:label` |
| Preflight.MissingIssues | tools/preflight_content_check.py:213-216 | a "missing outline" ERROR is raised exactly when the outline is blank, and a "missing mask" ERROR exactly when the mask is blank |
| Preflight.PathIssues | tools/preflight_content_check.py:218-229 | every per-path issue is scoped to `<page>:outline` or `<page>:mask` |
| Preflight.PageChecks | tools/preflight_content_check.py:212-229 | every check after the duplicate test is an ERROR or has a scope that starts with `<page>:` |
| Preflight.PageIssues | tools/preflight_content_check.py:206-229 | a page's issues contain the duplicate-id WARN exactly when the page is a duplicate |
| Preflight.PageReports | tools/preflight_content_check.py:205-229 | there is one block of issues per page |
| Preflight.DuplicateWarning | tools/preflight_content_check.py:208-209 | a page gets the duplicate-id WARN exactly when an earlier page has the same id |
| Preflight.DuplicateMeansEarlier | tools/preflight_content_check.py:204-210 | the page's id is among the ids seen before it exactly when some earlier page has that id |
| Preflight.BlankPathReported | tools/preflight_content_check.py:213-216 | a page with a blank outline or mask path gets an ERROR |
| Preflight.BlankPathFailsReport | tools/preflight_content_check.py:213-216 | one page with a blank path is enough for the report to hold an ERROR |
| Preflight.CheckLocal | tools/preflight_content_check.py:226-229 | appends exactly the local checks |
| Preflight.CheckTarget | tools/preflight_content_check.py:218-229 | appends exactly one path's checks |
| Preflight.AppendMissing | tools/preflight_content_check.py:213-216 | appends exactly the missing-path ERRORs, outline first |
| Preflight.CheckPage | tools/preflight_content_check.py:212-229 | appends exactly the page's checks after the duplicate test |
| Preflight.PageAppend | tools/preflight_content_check.py:205-229 | the duplicate WARN followed by the checks is the page's block of issues |
| Preflight.VisitPage | tools/preflight_content_check.py:205-229 | one loop iteration appends the page's issues and adds its id to the seen set, so the set stays equal to the ids seen so far |
| Preflight.VisitPages | tools/preflight_content_check.py:204-229 | the page loop produces exactly the report of all pages, in order |
| Preflight.Run | tools/preflight_content_check.py:200-243 | the issues are the page report followed by the audio issues. The summary counts add up. The exit code is 1 exactly when some issue is an ERROR, and 0 otherwise. Any page with a blank outline or mask path makes it 1 |

## Left out

- The OPTIONS preflight and method checks at the top of both handlers are not modelled: the 204 and 405 answers and the CORS headers. Console logging is not modelled either.
- The `updatedAt` server timestamp and the JSON `detail` text of provider failures are inputs or left out. The model keeps the fields that the lookup and the answers depend on.
- The ElevenLabs requests are not modelled: headers, model id, voice settings and the multipart form. The model keeps what is sent (voice id and text, or name, content type and size) and the reply's outcome.
- Storage upload, signed-URL issuance and its 30-day expiry are not modelled. The signed URL is an input.
- Narration.GenerateNarration: a thrown error from the text-to-speech request or its body read is modelled (`TtsThrown`, answered by the catch with 500). Errors thrown by the Firestore read and write of the audio document and by the storage save and signed-URL call are not: the model takes those as succeeding, so it does not show their 500 answers.
- ParentVoice.ParentVoiceCreate: a thrown error from the voice-service request or its JSON parse is modelled (`VoiceThrown`, answered by the catch with 500). An error thrown by the Firestore write of the voice id is not: the model takes it as succeeding.
- Base64 decoding is not modelled. The decoded byte length is an input.
- Firestore transactions are taken as atomic. `CounterStore.Admit` is one transaction on one record. Contention and retries are not modelled.
- The `Number(pageIndex)` coercion is not modelled. The request holds its outcome: an integer, or none when the value does not coerce to an integer.
- Text.Trim: whitespace is the six ASCII characters space, tab, newline, carriage return, vertical tab and form feed. JavaScript's `trim` also removes the Unicode space separators, line and paragraph separators and U+FEFF. Python's `str.strip` also removes U+001C to U+001F, U+0085 and the Unicode spaces, so an `id` of `"\x1c"` becomes `row_<i>` in the script but stays an id in the model.
- Text.Lower: lower-casing is ASCII only. It stands for JavaScript's `toLowerCase` (functions/src/index.ts:35) and for Python's `str.lower()` in `is_remote` and `check_url` (tools/preflight_content_check.py:55, 95); both also map non-ASCII letters. For the `http://`, `https://` and `gs://` prefix tests this makes no difference, since those prefixes are ASCII.
- Narration.ValidateNarration and ParentVoice.ValidateUpload: JavaScript's `.length` (functions/src/index.ts:108, 119, 124) counts UTF-16 code units, while the model counts characters. A text with characters outside the Basic Multilingual Plane is longer in the source than in the model, so the 1000-character limit and the 3-character voice-id minimum are checked on the character count.
- `load_coloring_pages`, argparse, JSON parsing, `main` and the printing of issues are not modelled. The pages are an input sequence and the printed lines are `Issues.Render` of each message.
- `check_audio_sfx` is not modelled as a directory walk. Its issues are an input to `Run`, and its messages are part of the `Message` type.
- Image decoding and the numpy colour statistics (`_opaque_color_stats`) are not modelled. The mask image is an input that is either undecodable, not RGBA, or RGBA with its set of alpha values and its opaque colours with pixel counts.
- Joining a normalised path onto the repository root (`ROOT / p`) is not modelled. Paths are keys of the file-system map.
- AssetPaths.IsRemote has no contract of its own. It is a predicate, and its property is stated by `AssetPaths.IsRemoteCanonical`.
- AssetPaths.CollectPaths has no contract of its own. Both halves are `PickField`, which has one.
- Issues.Render has no contract of its own; its properties are stated by `Issues.RenderEndsWithSubject` and `Issues.RenderSubjectBeforeReason`.
- Text.NatToString states only its length bounds. Its injectivity is `Text.NatToStringInjective`.

## Findings

| source | as written | input that shows it | evidently intended | confidence | as-written member | corrected member |
|---|---|---|---|---|---|---|
| functions/src/index.ts:186-196 | `set(..., {merge: true})` with the computed key `pages.N.audioUrl`. With `set`, unlike `update`, Firestore does not read dots as field paths, so the URL lands in a top-level field literally named `pages.N.audioUrl` | any first successful request for page N. The cache lookup at lines 141-143 reads `pages[N].audioUrl`, so it never finds the saved URL and every later request synthesizes again | the URL stored in the nested `pages` map, so that the lookup at lines 141-143 serves it | not executed | Narration.AsWrittenRequestSynthesizesAgain | Narration.SecondRequestServedFromCache |

`Narration.SaveAudioUrlAsWritten` models the save as written and `Narration.SaveAudioUrl` the corrected one. `Narration.Produce` and `Narration.GenerateNarration` take the save as a parameter (`SaveMode`), and their contracts hold for both. `Narration.AsWrittenSaveMissesCache` shows that the save as written never changes what the lookup finds. `Narration.AsWrittenRequestSynthesizesAgain` shows its consequence for the handler: the next request for the page is synthesized again. With the corrected save, `Narration.CacheRoundTrip` and `Narration.SecondRequestServedFromCache` show that the next request is served from the document.

The cache lookup is keyed by story and page index alone. A later request for the same page with a different language, voice or text gets the stored URL, as `Narration.SecondRequestServedFromCache` states. The storage path does distinguish the language (`Narration.StoragePathDistinct`). The model keeps this behaviour as the code has it.

This code has no "generating / ready / failed" entry state machine and no lock on a cache entry. The only transaction is the rate limiter, so concurrent first requests for one page may each synthesize. The model follows the code.

=== FILE: asset_paths.dfy ===
/**
 * The path helpers of tools/preflight_content_check.py: `is_remote`,
 * `normalize_local_asset` and `collect_paths`. Joining the result onto the
 * repository root is not modelled: the normalised path is kept relative.
 */
module AssetPaths {
  import opened Text

  const AssetsPrefix := "assets/"
  const DoubledPrefix := "assets/assets/"
  const Backslash := '\\'

  /** `is_remote`: the stripped, lower-cased path starts with http://, https:// or gs://. */
  predicate IsRemote(path: string)
  {
    var p := Lower(Trim(path));
    "http://" <= p || "https://" <= p || "gs://" <= p
  }

  /** The classification ignores surrounding whitespace and letter case. */
  lemma IsRemoteCanonical(path: string)
    ensures IsRemote(Trim(path)) == IsRemote(path)
    ensures IsRemote(Lower(path)) == IsRemote(path)
  {
    TrimIdempotent(path);
    TrimLowerCommute(path);
    LowerIdempotent(Trim(path));
  }

  /** `s.replace(a, b)` for single characters `a` and `b`. */
  function ReplaceChar(s: string, a: char, b: char): (r: string)
    ensures |r| == |s|
    ensures forall k :: 0 <= k < |s| ==> r[k] == (if s[k] == a then b else s[k])
  {
    seq(|s|, i requires 0 <= i < |s| => if s[i] == a then b else s[i])
  }

  /** `pat` occurs somewhere in `s`. */
  ghost predicate Occurs(pat: string, s: string)
  {
    exists i :: OccursAt(pat, s, i)
  }

  /** `s.replace(pat, rep, 1)`: the leftmost occurrence of `pat`, if any, becomes `rep`. */
  function ReplaceFirst(s: string, pat: string, rep: string): (r: string)
    requires pat != []
    ensures pat <= s ==> r == rep + s[|pat|..]
    ensures !Occurs(pat, s) ==> r == s
    decreases |s|
  {
    if |s| < |pat| then s
    else if pat <= s then
      assert OccursAt(pat, s, 0);
      rep + s[|pat|..]
    else
      assert Occurs(pat, s[1..]) ==> Occurs(pat, s) by {
        if Occurs(pat, s[1..]) {
          var i :| OccursAt(pat, s[1..], i);
          assert s[i + 1..i + 1 + |pat|] == s[1..][i..i + |pat|];
          assert OccursAt(pat, s, i + 1);
        }
      }
      assert s == [s[0]] + s[1..];
      [s[0]] + ReplaceFirst(s[1..], pat, rep)
  }

  /**
   * The `while` loop of `normalize_local_asset`: each round turns a leading
   * `assets/assets/` into `assets/`. The result is a suffix of the input and
   * no longer starts with the doubled prefix.
   */
  function CollapseDoubled(p: string): (r: string)
    ensures !(DoubledPrefix <= r)
    ensures |r| <= |p| && r == p[|p| - |r|..]
    decreases |p|
  {
    if DoubledPrefix <= p then
      var q := ReplaceFirst(p, DoubledPrefix, AssetsPrefix);
      assert q == p[7..];
      CollapseDoubled(q)
    else p
  }

  /** The path after the backslash, `/` and `./` clean-up that precedes the loop. */
  function Cleaned(path: string): (r: string)
    ensures Backslash !in r && NoTrailingSpace(r)
  {
    var p0 := ReplaceChar(Trim(path), Backslash, '/');
    var p1 := if "/" <= p0 then p0[1..] else p0;
    if "./" <= p1 then p1[2..] else p1
  }

  /**
   * The repository-relative path `normalize_local_asset` builds: it starts
   * with `assets/`, never with `assets/assets/`, and has no backslash.
   */
  function NormalizedAsset(path: string): (r: string)
    ensures AssetsPrefix <= r
    ensures !(DoubledPrefix <= r)
    ensures Backslash !in r
    ensures Trimmed(r)
  {
    var c := Cleaned(path);
    var p := CollapseDoubled(c);
    SuffixKeeps(c, p);
    AssetsPrefixed(p);
    if AssetsPrefix <= p then p else AssetsPrefix + p
  }

  /** Putting `assets/` in front of a clean path unless it already starts with it. */
  lemma AssetsPrefixed(p: string)
    requires !(DoubledPrefix <= p) && Backslash !in p && NoTrailingSpace(p)
    ensures var r := if AssetsPrefix <= p then p else AssetsPrefix + p;
      AssetsPrefix <= r && !(DoubledPrefix <= r) && Backslash !in r && Trimmed(r)
  {
    if AssetsPrefix <= p {
      assert p[0] == 'a';
      return;
    }
    var r := AssetsPrefix + p;
    assert r[..7] == AssetsPrefix && r[0] == 'a';
    if |r| >= 14 {
      assert r[7..14] == p[..7];
      assert DoubledPrefix[7..14] == AssetsPrefix;
      assert r[..14][7..14] != DoubledPrefix[7..14];
    }
    if p != [] {
      assert r[|r| - 1] == p[|p| - 1];
    }
    assert Backslash !in AssetsPrefix;
  }

  /** A suffix of a cleaned path has no backslash and no trailing whitespace either. */
  lemma SuffixKeeps(c: string, p: string)
    requires Backslash !in c && NoTrailingSpace(c)
    requires |p| <= |c| && p == c[|c| - |p|..]
    ensures Backslash !in p && NoTrailingSpace(p)
  {
    if p != [] {
      assert p[|p| - 1] == c[|c| - 1];
    }
  }

  /** Replacing a character that does not occur changes nothing. */
  lemma ReplaceAbsentChar(s: string, a: char, b: char)
    requires a !in s
    ensures ReplaceChar(s, a, b) == s
  {
  }

  /** A path that already has the normalised form comes through the clean-up unchanged. */
  lemma CleanedOfNormal(r: string)
    requires AssetsPrefix <= r && Backslash !in r && Trimmed(r)
    ensures Cleaned(r) == r
  {
    TrimOfTrimmed(r);
    ReplaceAbsentChar(r, Backslash, '/');
    assert r[0] == 'a';
  }

  /** Normalising a normalised path changes nothing. */
  lemma NormalizeIdempotent(path: string)
    ensures NormalizedAsset(NormalizedAsset(path)) == NormalizedAsset(path)
  {
    var r := NormalizedAsset(path);
    CleanedOfNormal(r);
    assert CollapseDoubled(r) == r;
  }

  /** One round of the loop leaves the eventual result unchanged. */
  lemma CollapseStep(q: string)
    requires DoubledPrefix <= q
    ensures |ReplaceFirst(q, DoubledPrefix, AssetsPrefix)| < |q|
    ensures CollapseDoubled(ReplaceFirst(q, DoubledPrefix, AssetsPrefix)) == CollapseDoubled(q)
  {
    assert ReplaceFirst(q, DoubledPrefix, AssetsPrefix) == q[7..];
  }

  /** The clean-up statements at the start of `normalize_local_asset`. */
  method CleanLocalPath(path: string) returns (p: string)
    ensures p == Cleaned(path)
  {
    p := ReplaceChar(Trim(path), Backslash, '/');
    if "/" <= p {
      p := p[1..];
    }
    if "./" <= p {
      p := p[2..];
    }
  }

  /** `normalize_local_asset`, step by step, with its `while` loop; returns the path relative to the repository root. */
  method NormalizeLocalAsset(path: string) returns (rel: string)
    ensures rel == NormalizedAsset(path)
  {
    var p := CleanLocalPath(path);
    ghost var cleaned := p;
    while DoubledPrefix <= p
      invariant CollapseDoubled(p) == CollapseDoubled(cleaned)
      decreases |p|
    {
      CollapseStep(p);
      p := ReplaceFirst(p, DoubledPrefix, AssetsPrefix);
    }
    if !(AssetsPrefix <= p) {
      p := AssetsPrefix + p;
    }
    rel := p;
  }

  /** A value of a page record as Python sees it: a string, or another value with its truthiness and its `str()`. */
  datatype PyValue = PyStr(s: string) | PyOther(truthy: bool, text: string)

  const PyNone := PyOther(false, "None")

  type Page = map<string, PyValue>

  /** `page.get(key)`: None for a missing key. */
  function Get(page: Page, key: string): PyValue
  {
    if key in page then page[key] else PyNone
  }

  predicate Truthy(v: PyValue)
  {
    match v
    case PyStr(s) => s != []
    case PyOther(t, _) => t
  }

  /** `str(v)`. */
  function Str(v: PyValue): string
  {
    match v
    case PyStr(s) => s
    case PyOther(_, text) => text
  }

  /** `str(page.get(first) or page.get(second) or "").strip()`. */
  function PickField(page: Page, first: string, second: string): (r: string)
    ensures Trimmed(r)
    ensures Truthy(Get(page, first)) ==> r == Trim(Str(Get(page, first)))
    ensures !Truthy(Get(page, first)) && Truthy(Get(page, second)) ==> r == Trim(Str(Get(page, second)))
    ensures !Truthy(Get(page, first)) && !Truthy(Get(page, second)) ==> r == []
  {
    var v := if Truthy(Get(page, first)) then Get(page, first)
             else if Truthy(Get(page, second)) then Get(page, second)
             else PyStr("");
    Trim(Str(v))
  }

  /** `collect_paths`: the outline path (`outlineUrl`, else `imageAsset`) and the mask path (`idMapUrl`, else `maskAsset`). */
  function CollectPaths(page: Page): (string, string)
  {
    (PickField(page, "outlineUrl", "imageAsset"), PickField(page, "idMapUrl", "maskAsset"))
  }
}

=== FILE: auth.dfy ===
/**
 * `verifyFirebaseAuth` in functions/src/index.ts: the caller must send
 * `Authorization: Bearer <token>`, and the token must be accepted by the
 * identity service, which is a parameter here.
 */
module Auth {
  import opened Common
  import opened Http

  const BearerPrefix := "Bearer "
  const Unauthenticated := 401

  /** The characters JavaScript's regular-expression `.` does not match. */
  predicate IsLineTerminator(c: char)
  {
    c == '\n' || c == '\r' || c == '\U{2028}' || c == '\U{2029}'
  }

  /** A token `(.+)` can match: at least one character, none of them a line terminator. */
  predicate IsTokenText(t: string)
  {
    t != [] && forall k :: 0 <= k < |t| ==> !IsLineTerminator(t[k])
  }

  /**
   * Matches the header (an absent header is "") against `^Bearer (.+)$`:
   * the token is everything after the prefix, else a 401 "Missing bearer token".
   */
  function BearerToken(header: string): (r: Result<string, Thrown>)
    ensures r.Ok? <==> BearerPrefix <= header && IsTokenText(header[|BearerPrefix|..])
    ensures r.Ok? ==> header == BearerPrefix + r.value
    ensures r.Err? ==> r.error == Thrown(Some(Unauthenticated), "Missing bearer token")
  {
    if BearerPrefix <= header && IsTokenText(header[|BearerPrefix|..]) then
      Ok(header[|BearerPrefix|..])
    else
      Err(Thrown(Some(Unauthenticated), "Missing bearer token"))
  }

  /** Writing a token into a header and reading it back gives the token. */
  lemma BearerTokenRoundTrip(token: string)
    requires IsTokenText(token)
    ensures BearerToken(BearerPrefix + token) == Ok(token)
  {
    assert (BearerPrefix + token)[|BearerPrefix|..] == token;
  }

  /**
   * The whole of `verifyFirebaseAuth`: `verify` stands for the identity
   * service and gives the user id for an accepted token.
   */
  function VerifyFirebaseAuth(header: string, verify: string -> Option<string>): (r: Result<string, Thrown>)
    ensures r.Ok? <==> BearerToken(header).Ok? && verify(BearerToken(header).value).Some?
    ensures r.Ok? ==> r.value == verify(BearerToken(header).value).value
    ensures r.Err? ==> r.error.status == Some(Unauthenticated)
  {
    match BearerToken(header)
    case Err(e) => Err(e)
    case Ok(token) =>
      match verify(token)
      case None => Err(Thrown(Some(Unauthenticated), "Invalid token"))
      case Some(uid) => Ok(uid)
  }
}

=== FILE: common.dfy ===
/** Optional values and results shared by every module of the model. */
module Common {

  datatype Option<+T> = None | Some(value: T)

  /** The outcome of a step that either produces a value or stops with an error. */
  datatype Result<+T, +E> = Ok(value: T) | Err(error: E)

  /** Appending is associative; stated once so that callers need not re-derive it element by element. */
  lemma AppendAssoc<T>(a: seq<T>, b: seq<T>, c: seq<T>)
    ensures (a + b) + c == a + (b + c)
  {
  }

  function Max(a: int, b: int): int
  {
    if a < b then b else a
  }

  function Min(a: int, b: int): int
  {
    if a < b then a else b
  }

  /** The blocks laid end to end, in order. */
  function Flatten<T>(blocks: seq<seq<T>>): seq<T>
  {
    if blocks == [] then [] else Flatten(blocks[..|blocks| - 1]) + blocks[|blocks| - 1]
  }

  /** Taking one more block appends it. */
  lemma FlattenPrefix<T>(blocks: seq<seq<T>>, i: nat)
    requires i < |blocks|
    ensures Flatten(blocks[..i + 1]) == Flatten(blocks[..i]) + blocks[i]
  {
    assert blocks[..i + 1][..i] == blocks[..i];
  }

  /** A set holding the elements of `s[..i]`, once `s[i]` is added, holds those of `s[..i + 1]`. */
  lemma SeenStep<T>(s: seq<T>, i: nat, seen: set<T>)
    requires i < |s|
    requires forall x :: x in seen <==> x in s[..i]
    ensures forall x :: x in seen + {s[i]} <==> x in s[..i + 1]
  {
    assert s[..i + 1] == s[..i] + [s[i]];
  }

  /** Membership in four pieces laid end to end. */
  lemma InFour<T>(x: T, a: seq<T>, b: seq<T>, c: seq<T>, d: seq<T>)
    ensures x in a + b + c + d <==> x in a || x in b || x in c || x in d
  {
  }
}

=== FILE: http.dfy ===
/**
 * The request values and responses the two HTTP functions of
 * functions/src/index.ts work with, and the fallback both use to turn a
 * thrown error into a response.
 */
module Http {
  import opened Common

  /** A field of the JSON request body: a string, or anything else (missing, null, a number, ...). */
  datatype JsValue = JsString(s: string) | JsOther

  /** The JSON body of a response. */
  datatype Body =
    | ErrorBody(error: string, detail: Option<string>)
    | AudioBody(audioUrl: string, cached: bool)
    | VoiceBody(voiceId: string)

  datatype Response = Response(status: int, body: Body)

  /** A request turned away by an early return: the status and the `error` text sent back. */
  datatype Rejection = Rejection(status: int, message: string)

  /** An error thrown inside a handler: its `status` if that is a number, and its `message` ("" when absent). */
  datatype Thrown = Thrown(status: Option<int>, message: string)

  const OkStatus := 200
  const ServerErrorStatus := 500
  const ServerErrorMessage := "Server error"

  function RejectionResponse(r: Rejection): Response
  {
    Response(r.status, ErrorBody(r.message, None))
  }

  /**
   * The `catch` block of both handlers: the thrown error's numeric status,
   * or 500 when it has none, and its message, or "Server error" when that is
   * empty or missing.
   */
  function CatchResponse(e: Thrown): (r: Response)
    ensures r.body.ErrorBody? && r.body.detail == None
    ensures e.status.Some? ==> r.status == e.status.value
    ensures e.status.None? ==> r.status == ServerErrorStatus
    ensures r.body.error != []
    ensures e.message != [] ==> r.body.error == e.message
    ensures e.message == [] ==> r.body.error == ServerErrorMessage
  {
    var status := if e.status.Some? then e.status.value else ServerErrorStatus;
    Response(status, ErrorBody(if e.message != [] then e.message else ServerErrorMessage, None))
  }
}

=== FILE: issues.dfy ===
/**
 * The `Issue` record of tools/preflight_content_check.py and the summary
 * `run` draws from the collected issues.
 */
module Issues {
  import opened Common
  import opened Text

  datatype Level = Error | Warn | Info

  /**
   * What an issue says: one constructor per message the script prints, with
   * the values it interpolates. `Render` gives the printed text.
   */
  datatype Message =
    | MissingFile(path: string)
    | NotAFile(path: string)
    | EmptyFile(path: string)
    | GsUrl(url: string)
    | UrlHeadFailed(code: nat, url: string)
    | UrlFailed(code: nat, url: string)
    | UrlUnreachable(url: string, reason: string)
    | UrlCheckFailed(url: string, detail: string)
    | MaskDecodeFailed(path: string, reason: string)
    | MaskNotRgba(path: string)
    | SemiTransparent(alphaCount: nat)
    | NoOpaqueRegions
    | FewColors(colorCount: nat)
    | ManyColors(colorCount: nat)
    | BlackRegion
    | TinyRegions(tinyCount: nat, threshold: nat)
    | MissingSfxDirectory(dir: string)
    | EmptyAudioFile(file: string)
    | DuplicatePageId(pid: string)
    | MissingOutlinePath
    | MissingMaskPath

  /** A non-empty caption followed by the file, URL or id it is about. */
  function Labelled(caption: string, subject: string): (r: string)
    requires caption != []
    ensures r != [] && OccursAt(subject, r, |r| - |subject|)
  {
    caption + subject
  }

  /** A caption, the URL or path it is about, and the reason in parentheses. */
  function WithReason(caption: string, subject: string, reason: string): (r: string)
    ensures OccursAt(subject, r, |caption|)
    ensures OccursAt(" (" + reason + ")", r, |caption| + |subject|)
    ensures |r| == |caption| + |subject| + |reason| + 3 && r[|r| - 1] == ')'
  {
    caption + subject + " (" + reason + ")"
  }

  /** The message as the script prints it. */
  function Render(m: Message): string
  {
    match m
    case MissingFile(path) => Labelled("Missing file: ", path)
    case NotAFile(path) => Labelled("Not a file: ", path)
    case EmptyFile(path) => Labelled("Empty file (0 bytes): ", path)
    case GsUrl(url) => Labelled("gs:// URL cannot be fetched directly: ", url)
    case UrlHeadFailed(code, url) => Labelled("URL HEAD failed (" + NatToString(code) + "): ", url)
    case UrlFailed(code, url) => Labelled("URL failed (" + NatToString(code) + "): ", url)
    case UrlUnreachable(url, reason) => WithReason("URL unreachable: ", url, reason)
    case UrlCheckFailed(url, detail) => WithReason("URL check failed: ", url, detail)
    case MaskDecodeFailed(path, reason) => WithReason("Mask decode failed: ", path, reason)
    case MaskNotRgba(path) => Labelled("Mask is not RGBA: ", path)
    case SemiTransparent(n) =>
      "Semi-transparent pixels found (" + NatToString(n) + " alpha values). Expected alpha 0/255 only."
    case NoOpaqueRegions => "No opaque regions in mask."
    case FewColors(n) => "Only " + NatToString(n) + " opaque color region(s)."
    case ManyColors(n) => "Very high region color count (" + NatToString(n) + ")."
    case BlackRegion => "Opaque black region present in id-map."
    case TinyRegions(n, threshold) => NatToString(n) + " region colors are tiny (<" + NatToString(threshold) + " px)."
    case MissingSfxDirectory(dir) => Labelled("Missing directory: ", dir)
    case EmptyAudioFile(file) => Labelled("Empty audio file: ", file)
    case DuplicatePageId(pid) => Labelled("Duplicate page id: ", pid)
    case MissingOutlinePath => "Missing outlineUrl/imageAsset."
    case MissingMaskPath => "Missing idMapUrl/maskAsset."
  }

  /**
   * The nine messages whose text ends with their subject (a missing, empty
   * or non-file path, a mask that is not RGBA, a `gs://` URL, a failed HEAD
   * or GET, a missing directory, an empty audio file, a duplicate page id)
   * are printed with that subject at the end.
   */
  lemma RenderEndsWithSubject(m: Message)
    ensures m.MissingFile? || m.NotAFile? || m.EmptyFile? || m.MaskNotRgba? ==>
      OccursAt(m.path, Render(m), |Render(m)| - |m.path|)
    ensures m.GsUrl? || m.UrlHeadFailed? || m.UrlFailed? ==> OccursAt(m.url, Render(m), |Render(m)| - |m.url|)
    ensures m.MissingSfxDirectory? ==> OccursAt(m.dir, Render(m), |Render(m)| - |m.dir|)
    ensures m.EmptyAudioFile? ==> OccursAt(m.file, Render(m), |Render(m)| - |m.file|)
    ensures m.DuplicatePageId? ==> OccursAt(m.pid, Render(m), |Render(m)| - |m.pid|)
  {
    if m.MissingFile? || m.NotAFile? || m.EmptyFile? || m.MaskNotRgba? {
      RenderEndsWithPath(m);
    } else if m.GsUrl? || m.UrlHeadFailed? || m.UrlFailed? {
      RenderEndsWithUrl(m);
    }
  }

  lemma RenderEndsWithPath(m: Message)
    requires m.MissingFile? || m.NotAFile? || m.EmptyFile? || m.MaskNotRgba?
    ensures OccursAt(m.path, Render(m), |Render(m)| - |m.path|)
  {
  }

  lemma RenderEndsWithUrl(m: Message)
    requires m.GsUrl? || m.UrlHeadFailed? || m.UrlFailed?
    ensures OccursAt(m.url, Render(m), |Render(m)| - |m.url|)
  {
  }


  /**
   * The three messages that carry a reason (an unreachable URL, a failed URL
   * check, an undecodable mask) print their subject right after the caption,
   * then the reason in parentheses, which ends the text.
   */
  lemma RenderSubjectBeforeReason(m: Message)
    ensures m.UrlUnreachable? ==>
      OccursAt(m.url, Render(m), |"URL unreachable: "|) && Render(m)[|Render(m)| - 1] == ')'
    ensures m.UrlCheckFailed? ==>
      OccursAt(m.url, Render(m), |"URL check failed: "|) && Render(m)[|Render(m)| - 1] == ')'
    ensures m.MaskDecodeFailed? ==>
      OccursAt(m.path, Render(m), |"Mask decode failed: "|) && Render(m)[|Render(m)| - 1] == ')'
    ensures m.UrlUnreachable? ==> OccursAt(" (" + m.reason + ")", Render(m), |"URL unreachable: "| + |m.url|)
    ensures m.UrlCheckFailed? ==> OccursAt(" (" + m.detail + ")", Render(m), |"URL check failed: "| + |m.url|)
    ensures m.MaskDecodeFailed? ==> OccursAt(" (" + m.reason + ")", Render(m), |"Mask decode failed: "| + |m.path|)
  {
    if m.UrlUnreachable? {
      assert Render(m) == WithReason("URL unreachable: ", m.url, m.reason);
    } else if m.UrlCheckFailed? {
      assert Render(m) == WithReason("URL check failed: ", m.url, m.detail);
    } else if m.MaskDecodeFailed? {
      assert Render(m) == WithReason("Mask decode failed: ", m.path, m.reason);
    }
  }

  datatype Issue = Issue(level: Level, scope: string, message: Message)

  /** How many issues have the given level. */
  function CountLevel(issues: seq<Issue>, level: Level): (n: nat)
    ensures n <= |issues|
    decreases |issues|
  {
    if issues == [] then 0
    else CountLevel(issues[..|issues| - 1], level) + (if issues[|issues| - 1].level == level then 1 else 0)
  }

  /** Some issue has the level exactly when the count is positive. */
  lemma {:induction false} CountLevelPositive(issues: seq<Issue>, level: Level)
    ensures CountLevel(issues, level) > 0 <==> exists k :: 0 <= k < |issues| && issues[k].level == level
    decreases |issues|
  {
    if issues != [] {
      var init := issues[..|issues| - 1];
      CountLevelPositive(init, level);
      if exists k :: 0 <= k < |init| && init[k].level == level {
        var k :| 0 <= k < |init| && init[k].level == level;
        assert issues[k].level == level;
      }
    }
  }

  /** Every issue has exactly one of the three levels, so the three counts add up to the total. */
  lemma {:induction false} CountLevelPartition(issues: seq<Issue>)
    ensures CountLevel(issues, Error) + CountLevel(issues, Warn) + CountLevel(issues, Info) == |issues|
    decreases |issues|
  {
    if issues != [] {
      CountLevelPartition(issues[..|issues| - 1]);
    }
  }

  /** Some issue is an ERROR. */
  predicate HasError(issues: seq<Issue>)
  {
    exists k :: 0 <= k < |issues| && issues[k].level == Error
  }

  /** A concatenation holds an ERROR exactly when one of its parts does. */
  lemma ErrorAppend(a: seq<Issue>, b: seq<Issue>)
    ensures HasError(a + b) <==> HasError(a) || HasError(b)
  {
    if HasError(a) {
      var k :| 0 <= k < |a| && a[k].level == Error;
      assert (a + b)[k].level == Error;
    }
    if HasError(b) {
      var k :| 0 <= k < |b| && b[k].level == Error;
      assert (a + b)[|a| + k].level == Error;
    }
    if HasError(a + b) {
      var k :| 0 <= k < |a + b| && (a + b)[k].level == Error;
      if k < |a| {
        assert a[k].level == Error;
      } else {
        assert b[k - |a|].level == Error;
      }
    }
  }

  /** The concatenated blocks hold an ERROR exactly when one of the blocks does. */
  lemma {:induction false} FlattenHasError(blocks: seq<seq<Issue>>)
    ensures HasError(Flatten(blocks)) <==> exists k :: 0 <= k < |blocks| && HasError(blocks[k])
    decreases |blocks|
  {
    if blocks != [] {
      var n := |blocks| - 1;
      var init := blocks[..n];
      FlattenHasError(init);
      ErrorAppend(Flatten(init), blocks[n]);
      if HasError(Flatten(blocks)) && !HasError(blocks[n]) {
        var k :| 0 <= k < n && HasError(init[k]);
        assert HasError(blocks[k]);
      }
      if exists k :: 0 <= k < |blocks| && HasError(blocks[k]) {
        var k :| 0 <= k < |blocks| && HasError(blocks[k]);
        if k < n {
          assert HasError(init[k]);
        }
      }
    }
  }

  /** The counts of the closing summary line. */
  datatype Summary = Summary(errors: nat, warnings: nat, info: int)

  /**
   * The summary `run` prints: errors, warnings, and the remainder as info,
   * which is exactly the number of INFO issues.
   */
  function Summarize(issues: seq<Issue>): (s: Summary)
    ensures s.errors == CountLevel(issues, Error) && s.warnings == CountLevel(issues, Warn)
    ensures s.info == CountLevel(issues, Info) && s.errors + s.warnings + s.info == |issues|
  {
    var errors := CountLevel(issues, Error);
    var warnings := CountLevel(issues, Warn);
    CountLevelPartition(issues);
    Summary(errors, warnings, |issues| - errors - warnings)
  }

  /** `1 if errors else 0`: the exit status is 1 exactly when some issue is an ERROR. */
  function ExitCode(issues: seq<Issue>): (code: int)
    ensures code == 1 <==> exists k :: 0 <= k < |issues| && issues[k].level == Error
    ensures code == 0 || code == 1
  {
    CountLevelPositive(issues, Error);
    if CountLevel(issues, Error) > 0 then 1 else 0
  }
}

=== FILE: mask_check.dfy ===
/**
 * `check_mask` in tools/preflight_content_check.py: the threshold verdicts
 * on a colouring page's id-map. Image decoding and the per-colour pixel
 * statistics are not modelled; the decoded image arrives as its set of
 * alpha values and its opaque colours with their pixel counts.
 */
module MaskCheck {
  import opened Text
  import opened Common
  import opened Issues

  const TinyThreshold := 24
  const HighColorCount := 80

  datatype Rgb = Rgb(r: int, g: int, b: int)

  /** One distinct opaque colour of the mask and how many pixels have it. */
  datatype ColorCount = ColorCount(rgb: Rgb, pixels: nat)

  /** What opening the mask gave: a decode error, an image without four channels, or an RGBA image. */
  datatype MaskImage =
    | DecodeFailed(reason: string)
    | NotRgba
    | Rgba(alphaValues: set<int>, colors: seq<ColorCount>)

  predicate IsBlack(c: ColorCount)
  {
    c.rgb == Rgb(0, 0, 0)
  }

  predicate IsTiny(c: ColorCount)
  {
    c.pixels < TinyThreshold
  }

  predicate HasBlack(colors: seq<ColorCount>)
  {
    exists k :: 0 <= k < |colors| && IsBlack(colors[k])
  }

  /** The number of colours below the tiny-region threshold. */
  function CountTiny(colors: seq<ColorCount>): (n: nat)
    ensures n <= |colors|
    decreases |colors|
  {
    if colors == [] then 0
    else CountTiny(colors[..|colors| - 1]) + (if IsTiny(colors[|colors| - 1]) then 1 else 0)
  }

  /** Some colour is tiny exactly when the tiny count is positive. */
  lemma {:induction false} CountTinyPositive(colors: seq<ColorCount>)
    ensures CountTiny(colors) > 0 <==> exists k :: 0 <= k < |colors| && IsTiny(colors[k])
    decreases |colors|
  {
    if colors != [] {
      var init := colors[..|colors| - 1];
      CountTinyPositive(init);
      if exists k :: 0 <= k < |init| && IsTiny(init[k]) {
        var k :| 0 <= k < |init| && IsTiny(init[k]);
        assert IsTiny(colors[k]);
      }
    }
  }

  function DecodeFailedIssue(scope: string, path: string, reason: string): Issue
  {
    Issue(Error, scope, MaskDecodeFailed(path, reason))
  }

  function NotRgbaIssue(scope: string, path: string): Issue
  {
    Issue(Error, scope, MaskNotRgba(path))
  }

  function SemiTransparentIssue(scope: string, n: nat): Issue
  {
    Issue(Warn, scope, SemiTransparent(n))
  }

  function NoOpaqueIssue(scope: string): Issue
  {
    Issue(Error, scope, NoOpaqueRegions)
  }

  function FewColorsIssue(scope: string, n: nat): Issue
  {
    Issue(Warn, scope, FewColors(n))
  }

  function ManyColorsIssue(scope: string, n: nat): Issue
  {
    Issue(Warn, scope, ManyColors(n))
  }

  function BlackIssue(scope: string): Issue
  {
    Issue(Warn, scope, BlackRegion)
  }

  function TinyIssue(scope: string, n: nat): Issue
  {
    Issue(Warn, scope, TinyRegions(n, TinyThreshold))
  }

  /** The alpha values other than fully transparent and fully opaque. */
  function MidAlphas(alphas: set<int>): set<int>
  {
    alphas - {0, 255}
  }

  function AlphaIssues(scope: string, alphas: set<int>): (r: seq<Issue>)
    ensures r != [] <==> MidAlphas(alphas) != {}
    ensures r != [] ==> r == [SemiTransparentIssue(scope, |MidAlphas(alphas)|)]
    ensures |r| <= 1 && forall k :: 0 <= k < |r| ==> r[k].level == Warn && r[k].scope == scope
  {
    if |MidAlphas(alphas)| > 0 then [SemiTransparentIssue(scope, |MidAlphas(alphas)|)] else []
  }

  /**
   * The colour verdicts: no opaque colour is the one ERROR and ends the
   * check; otherwise every verdict is a WARN.
   */
  function ColorIssues(scope: string, colors: seq<ColorCount>): (r: seq<Issue>)
    ensures colors == [] ==> r == [NoOpaqueIssue(scope)]
    ensures colors != [] ==> |r| <= 4 && forall k :: 0 <= k < |r| ==> r[k].level == Warn
    ensures forall k :: 0 <= k < |r| ==> r[k].scope == scope
  {
    if colors == [] then [NoOpaqueIssue(scope)]
    else
      var n := |colors|;
      (if n < 2 then [FewColorsIssue(scope, n)] else [])
      + (if n > HighColorCount then [ManyColorsIssue(scope, n)] else [])
      + (if HasBlack(colors) then [BlackIssue(scope)] else [])
      + (if CountTiny(colors) > 0 then [TinyIssue(scope, CountTiny(colors))] else [])
  }

  /**
   * Each colour warning is present exactly when its threshold is crossed:
   * one colour only, more than 80 colours, a pure black colour, a colour
   * under 24 pixels (reported with the number of such colours).
   */
  lemma ColorVerdicts(scope: string, colors: seq<ColorCount>)
    ensures FewColorsIssue(scope, 1) in ColorIssues(scope, colors) <==> |colors| == 1
    ensures ManyColorsIssue(scope, |colors|) in ColorIssues(scope, colors) <==> |colors| > HighColorCount
    ensures BlackIssue(scope) in ColorIssues(scope, colors) <==> HasBlack(colors)
    ensures TinyIssue(scope, CountTiny(colors)) in ColorIssues(scope, colors) <==>
      exists k :: 0 <= k < |colors| && IsTiny(colors[k])
  {
    FewColorsVerdict(scope, colors);
    ManyColorsVerdict(scope, colors);
    BlackVerdict(scope, colors);
    TinyVerdict(scope, colors);
    CountTinyPositive(colors);
  }

  /** The "Only n opaque color region(s)" WARN appears exactly for a single colour. */
  lemma FewColorsVerdict(scope: string, colors: seq<ColorCount>)
    ensures FewColorsIssue(scope, 1) in ColorIssues(scope, colors) <==> |colors| == 1
  {
    if colors != [] {
      var n := |colors|;
      var few := if n < 2 then [FewColorsIssue(scope, n)] else [];
      var many := if n > HighColorCount then [ManyColorsIssue(scope, n)] else [];
      var black := if HasBlack(colors) then [BlackIssue(scope)] else [];
      var tiny := if CountTiny(colors) > 0 then [TinyIssue(scope, CountTiny(colors))] else [];
      assert ColorIssues(scope, colors) == few + many + black + tiny;
      InFour(FewColorsIssue(scope, 1), few, many, black, tiny);
      assert (FewColorsIssue(scope, 1) in few) == (n == 1);
    }
  }

  /** The "Very high region color count" WARN appears exactly above 80 colours. */
  lemma ManyColorsVerdict(scope: string, colors: seq<ColorCount>)
    ensures ManyColorsIssue(scope, |colors|) in ColorIssues(scope, colors) <==> |colors| > HighColorCount
  {
    if colors != [] {
      var n := |colors|;
      var few := if n < 2 then [FewColorsIssue(scope, n)] else [];
      var many := if n > HighColorCount then [ManyColorsIssue(scope, n)] else [];
      var black := if HasBlack(colors) then [BlackIssue(scope)] else [];
      var tiny := if CountTiny(colors) > 0 then [TinyIssue(scope, CountTiny(colors))] else [];
      assert ColorIssues(scope, colors) == few + many + black + tiny;
      InFour(ManyColorsIssue(scope, n), few, many, black, tiny);
      assert (ManyColorsIssue(scope, n) in many) == (n > HighColorCount);
    }
  }

  /** The opaque-black WARN appears exactly when some colour is pure black. */
  lemma BlackVerdict(scope: string, colors: seq<ColorCount>)
    ensures BlackIssue(scope) in ColorIssues(scope, colors) <==> HasBlack(colors)
  {
    if colors != [] {
      var n := |colors|;
      var few := if n < 2 then [FewColorsIssue(scope, n)] else [];
      var many := if n > HighColorCount then [ManyColorsIssue(scope, n)] else [];
      var black := if HasBlack(colors) then [BlackIssue(scope)] else [];
      var tiny := if CountTiny(colors) > 0 then [TinyIssue(scope, CountTiny(colors))] else [];
      assert ColorIssues(scope, colors) == few + many + black + tiny;
      InFour(BlackIssue(scope), few, many, black, tiny);
      assert (BlackIssue(scope) in black) == HasBlack(colors);
    }
  }

  /** The tiny-regions WARN, with the tiny count, appears exactly when that count is positive. */
  lemma TinyVerdict(scope: string, colors: seq<ColorCount>)
    ensures TinyIssue(scope, CountTiny(colors)) in ColorIssues(scope, colors) <==> CountTiny(colors) > 0
  {
    if colors != [] {
      var n := |colors|;
      var few := if n < 2 then [FewColorsIssue(scope, n)] else [];
      var many := if n > HighColorCount then [ManyColorsIssue(scope, n)] else [];
      var black := if HasBlack(colors) then [BlackIssue(scope)] else [];
      var tiny := if CountTiny(colors) > 0 then [TinyIssue(scope, CountTiny(colors))] else [];
      assert ColorIssues(scope, colors) == few + many + black + tiny;
      InFour(TinyIssue(scope, CountTiny(colors)), few, many, black, tiny);
      assert (TinyIssue(scope, CountTiny(colors)) in tiny) == (CountTiny(colors) > 0);
    }
  }

  /** Every issue `check_mask` appends for one mask, all under the page's mask scope. */
  function MaskIssues(path: string, image: MaskImage, scope: string): (r: seq<Issue>)
    ensures forall k :: 0 <= k < |r| ==> r[k].scope == scope
  {
    match image
    case DecodeFailed(reason) => [DecodeFailedIssue(scope, path, reason)]
    case NotRgba => [NotRgbaIssue(scope, path)]
    case Rgba(alphas, colors) => AlphaIssues(scope, alphas) + ColorIssues(scope, colors)
  }

  /**
   * A mask that cannot be decoded, is not RGBA or has no opaque colour gets
   * exactly one ERROR, as the last issue (`check_mask` returns after it);
   * any other mask gets warnings only.
   */
  lemma MaskErrors(path: string, image: MaskImage, scope: string)
    ensures var r := MaskIssues(path, image, scope);
      HasError(r) <==> !(image.Rgba? && image.colors != [])
    ensures var r := MaskIssues(path, image, scope);
      forall k :: 0 <= k < |r| && r[k].level == Error ==> k == |r| - 1
  {
    var r := MaskIssues(path, image, scope);
    if !(image.Rgba? && image.colors != []) {
      assert r[|r| - 1].level == Error;
    }
  }

  /** One pass over the opaque colours: is one of them pure black, and how many are tiny. */
  method ScanColors(colors: seq<ColorCount>) returns (black: bool, tiny: nat)
    ensures black == HasBlack(colors) && tiny == CountTiny(colors)
  {
    black, tiny := false, 0;
    var k := 0;
    while k < |colors|
      invariant 0 <= k <= |colors|
      invariant black <==> exists j :: 0 <= j < k && IsBlack(colors[j])
      invariant tiny == CountTiny(colors[..k])
    {
      assert colors[..k + 1][..k] == colors[..k];
      if colors[k].rgb == Rgb(0, 0, 0) {
        black := true;
      }
      if colors[k].pixels < TinyThreshold {
        tiny := tiny + 1;
      }
      k := k + 1;
    }
    assert colors[..k] == colors;
  }

  /** The colour checks of `check_mask` once some opaque colour exists, each appending its WARN in turn. */
  method AppendColorVerdicts(scope: string, colors: seq<ColorCount>, issues: seq<Issue>) returns (out: seq<Issue>)
    requires colors != []
    ensures out == issues + ColorIssues(scope, colors)
  {
    var colorCount := |colors|;
    out := issues;
    ghost var verdicts: seq<Issue> := [];
    if colorCount < 2 {
      out, verdicts := out + [FewColorsIssue(scope, colorCount)], verdicts + [FewColorsIssue(scope, colorCount)];
    }
    assert out == issues + verdicts;
    if colorCount > HighColorCount {
      out, verdicts := out + [ManyColorsIssue(scope, colorCount)], verdicts + [ManyColorsIssue(scope, colorCount)];
    }
    assert out == issues + verdicts;
    var black, tiny := ScanColors(colors);
    if black {
      out, verdicts := out + [BlackIssue(scope)], verdicts + [BlackIssue(scope)];
    }
    assert out == issues + verdicts;
    if tiny > 0 {
      out, verdicts := out + [TinyIssue(scope, tiny)], verdicts + [TinyIssue(scope, tiny)];
    }
    assert out == issues + verdicts;
    assert verdicts == ColorIssues(scope, colors);
  }

  /** `check_mask`, appending its verdicts to `issues` one check after another. */
  method CheckMask(path: string, image: MaskImage, scope: string, issues: seq<Issue>) returns (out: seq<Issue>)
    ensures out == issues + MaskIssues(path, image, scope)
  {
    match image {
      case DecodeFailed(reason) =>
        out := issues + [DecodeFailedIssue(scope, path, reason)];
      case NotRgba =>
        out := issues + [NotRgbaIssue(scope, path)];
      case Rgba(alphas, colors) =>
        out := issues;
        var mid := alphas - {0, 255};
        if |mid| > 0 {
          out := out + [SemiTransparentIssue(scope, |mid|)];
        }
        assert out == issues + AlphaIssues(scope, alphas);
        var colorCount := |colors|;
        if colorCount == 0 {
          out := out + [NoOpaqueIssue(scope)];
          assert MaskIssues(path, image, scope) == AlphaIssues(scope, alphas) + [NoOpaqueIssue(scope)];
          AppendAssoc(issues, AlphaIssues(scope, alphas), [NoOpaqueIssue(scope)]);
          return;
        }
        out := AppendColorVerdicts(scope, colors, out);
        assert MaskIssues(path, image, scope) == AlphaIssues(scope, alphas) + ColorIssues(scope, colors);
        AppendAssoc(issues, AlphaIssues(scope, alphas), ColorIssues(scope, colors));
    }
  }
}

=== FILE: narration.dfy ===
/**
 * `generateNarration` in functions/src/index.ts: authenticate, rate-limit
 * (10 requests a minute), validate the body, serve a stored URL for the page
 * if the user already has one, else synthesize, store the audio and record
 * its signed URL. The identity service, the text-to-speech reply, the
 * stored documents and the signed URL are inputs.
 */
module Narration {
  import opened Common
  import opened Text
  import opened Http
  import opened Auth
  import opened RateLimit

  const NarrationWindowMs := 60 * 1000
  const NarrationMaxRequests := 10
  const MaxPageIndex := 500
  const MinVoiceIdLength := 3
  const MaxTextLength := 1000
  const MinAudioBytes := 200

  const BadRequest := 400
  const PayloadTooLarge := 413
  const BadGateway := 502

  datatype Lang = En | Te

  function LangCode(l: Lang): string
  {
    match l
    case En => "en"
    case Te => "te"
  }

  /** `normalizeLang`: a string whose trimmed, lower-cased form is "en" or "te"; anything else is null. */
  function NormalizeLang(lang: JsValue): (r: Option<Lang>)
    ensures r.Some? <==> lang.JsString? && Lower(Trim(lang.s)) in {"en", "te"}
    ensures r.Some? ==> LangCode(r.value) == Lower(Trim(lang.s))
  {
    if !lang.JsString? then None
    else
      var l := Lower(Trim(lang.s));
      if l == "en" then Some(En)
      else if l == "te" then Some(Te)
      else None
  }

  /** A language code is accepted as itself. */
  lemma NormalizeLangRoundTrip(l: Lang)
    ensures NormalizeLang(JsString(LangCode(l))) == Some(l)
  {
    TrimOfTrimmed(LangCode(l));
  }

  /** Only the trimmed, lower-cased form of the input matters. */
  lemma NormalizeLangCanonical(s: string)
    ensures NormalizeLang(JsString(s)) == NormalizeLang(JsString(Lower(Trim(s))))
  {
    TrimLowerCommute(Trim(s));
    TrimIdempotent(s);
    LowerIdempotent(Trim(s));
  }

  /** The body fields of a narration request; `pageIndex` is `Number(pageIndex)` when that is an integer, else None. */
  datatype NarrationRequest = NarrationRequest(
    storyId: JsValue, pageIndex: Option<int>, lang: JsValue, text: JsValue, voiceId: JsValue)

  /** A request that passed validation, with its fields trimmed and normalised. */
  datatype Narration = Narration(storyId: string, pageIndex: nat, lang: Lang, voiceId: string, text: string)

  predicate StoryIdValid(req: NarrationRequest)
  {
    req.storyId.JsString? && |Trim(req.storyId.s)| > 0
  }

  predicate PageIndexValid(req: NarrationRequest)
  {
    req.pageIndex.Some? && 0 <= req.pageIndex.value <= MaxPageIndex
  }

  predicate VoiceIdValid(req: NarrationRequest)
  {
    req.voiceId.JsString? && |Trim(req.voiceId.s)| >= MinVoiceIdLength
  }

  /** Every check before the text checks passes. */
  predicate HeadValid(req: NarrationRequest)
  {
    StoryIdValid(req) && PageIndexValid(req) && NormalizeLang(req.lang).Some? && VoiceIdValid(req)
  }

  predicate TextValid(req: NarrationRequest)
  {
    req.text.JsString? && 1 <= |Trim(req.text.s)| <= MaxTextLength
  }

  /**
   * The validation chain. The checks run in order (storyId, pageIndex, lang,
   * voiceId, text) and the first that fails decides the response: 413 for an
   * over-long text, 400 for everything else.
   */
  function ValidateNarration(req: NarrationRequest): (r: Result<Narration, Rejection>)
    ensures r.Ok? <==> HeadValid(req) && TextValid(req)
    ensures r.Ok? ==>
      r.value == Narration(Trim(req.storyId.s), req.pageIndex.value, NormalizeLang(req.lang).value,
                           Trim(req.voiceId.s), Trim(req.text.s))
    ensures r.Ok? ==>
      r.value.storyId != [] && r.value.pageIndex <= MaxPageIndex &&
      |r.value.voiceId| >= MinVoiceIdLength && 1 <= |r.value.text| <= MaxTextLength
    ensures !StoryIdValid(req) ==> r == Err(Rejection(BadRequest, "Invalid storyId"))
    ensures StoryIdValid(req) && !PageIndexValid(req) ==> r == Err(Rejection(BadRequest, "Invalid pageIndex"))
    ensures StoryIdValid(req) && PageIndexValid(req) && NormalizeLang(req.lang).None? ==>
      r == Err(Rejection(BadRequest, "Invalid lang (must be 'en' or 'te')"))
    ensures StoryIdValid(req) && PageIndexValid(req) && NormalizeLang(req.lang).Some? && !VoiceIdValid(req) ==>
      r == Err(Rejection(BadRequest, "Invalid voiceId"))
    ensures HeadValid(req) && !req.text.JsString? ==> r == Err(Rejection(BadRequest, "Invalid text"))
    ensures HeadValid(req) && req.text.JsString? && Trim(req.text.s) == [] ==> r == Err(Rejection(BadRequest, "Empty text"))
    ensures r.Err? ==> (r.error.status == PayloadTooLarge <==>
      HeadValid(req) && req.text.JsString? && |Trim(req.text.s)| > MaxTextLength)
    ensures r.Err? ==> r.error.status in {BadRequest, PayloadTooLarge}
  {
    if !StoryIdValid(req) then Err(Rejection(BadRequest, "Invalid storyId"))
    else if !PageIndexValid(req) then Err(Rejection(BadRequest, "Invalid pageIndex"))
    else if NormalizeLang(req.lang).None? then Err(Rejection(BadRequest, "Invalid lang (must be 'en' or 'te')"))
    else if !VoiceIdValid(req) then Err(Rejection(BadRequest, "Invalid voiceId"))
    else if !req.text.JsString? then Err(Rejection(BadRequest, "Invalid text"))
    else
      var cleanText := Trim(req.text.s);
      if |cleanText| == 0 then Err(Rejection(BadRequest, "Empty text"))
      else if |cleanText| > MaxTextLength then Err(Rejection(PayloadTooLarge, "Text too long (max 1000 chars)"))
      else Ok(Narration(Trim(req.storyId.s), req.pageIndex.value, NormalizeLang(req.lang).value,
                        Trim(req.voiceId.s), cleanText))
  }

  /**
   * The document users/<uid>/personalized_audio/<storyId>: `pages` maps a
   * page key to that entry's `audioUrl` field, `fields` holds the top-level
   * string fields.
   */
  datatype AudioDoc = AudioDoc(pages: map<string, JsValue>, fields: map<string, string>)

  /** `String(pageIdxNum)`, the key of a page in `pages`. */
  function PageKey(pageIndex: nat): string
  {
    NatToString(pageIndex)
  }

  /** The stored URL for the page, if the document has one that is a non-empty string. */
  function CachedAudioUrl(doc: Option<AudioDoc>, pageIndex: nat): (r: Option<string>)
    ensures r.Some? <==>
      doc.Some? && PageKey(pageIndex) in doc.value.pages &&
      doc.value.pages[PageKey(pageIndex)].JsString? && doc.value.pages[PageKey(pageIndex)].s != []
    ensures r.Some? ==> r.value == doc.value.pages[PageKey(pageIndex)].s
  {
    if doc.None? then None
    else
      var key := PageKey(pageIndex);
      if key in doc.value.pages && doc.value.pages[key].JsString? && doc.value.pages[key].s != [] then
        Some(doc.value.pages[key].s)
      else None
  }

  /** The key written for the page's URL: `pages.<n>.audioUrl`. */
  function PageFieldKey(pageIndex: nat): string
  {
    "pages." + PageKey(pageIndex) + ".audioUrl"
  }

  /** The top-level fields every save writes. */
  function SavedFields(fields: map<string, string>, n: Narration): map<string, string>
  {
    fields["storyId" := n.storyId]["lang" := LangCode(n.lang)]["voiceId" := n.voiceId]
  }

  function ExistingOrEmpty(doc: Option<AudioDoc>): AudioDoc
  {
    if doc.Some? then doc.value else AudioDoc(map[], map[])
  }

  /**
   * The save as written: a merge `set` whose key is `pages.<n>.audioUrl`.
   * A merge `set` takes a dotted key as one literal field name, so the URL
   * lands in a top-level field and `pages` is left as it was.
   */
  function SaveAudioUrlAsWritten(doc: Option<AudioDoc>, n: Narration, url: string): (r: AudioDoc)
    ensures r.pages == ExistingOrEmpty(doc).pages
    ensures PageFieldKey(n.pageIndex) in r.fields && r.fields[PageFieldKey(n.pageIndex)] == url
  {
    var d := ExistingOrEmpty(doc);
    AudioDoc(d.pages, SavedFields(d.fields, n)[PageFieldKey(n.pageIndex) := url])
  }

  /**
   * The save as written never changes what the lookup finds, for any page:
   * the URL it writes is invisible to the lookup it is meant to feed.
   */
  lemma AsWrittenSaveMissesCache(doc: Option<AudioDoc>, n: Narration, url: string, page: nat)
    ensures CachedAudioUrl(Some(SaveAudioUrlAsWritten(doc, n, url)), page) == CachedAudioUrl(doc, page)
  {
  }

  /** The save as intended: the URL goes to `pages[<n>].audioUrl`, next to the other pages. */
  function SaveAudioUrl(doc: Option<AudioDoc>, n: Narration, url: string): (r: AudioDoc)
    ensures r.fields == SavedFields(ExistingOrEmpty(doc).fields, n)
  {
    var d := ExistingOrEmpty(doc);
    AudioDoc(d.pages[PageKey(n.pageIndex) := JsString(url)], SavedFields(d.fields, n))
  }

  /** After a save, the lookup finds the saved URL for that page and the same answer as before for every other page. */
  lemma CacheRoundTrip(doc: Option<AudioDoc>, n: Narration, url: string, other: nat)
    requires url != []
    ensures CachedAudioUrl(Some(SaveAudioUrl(doc, n, url)), n.pageIndex) == Some(url)
    ensures other != n.pageIndex ==>
      CachedAudioUrl(Some(SaveAudioUrl(doc, n, url)), other) == CachedAudioUrl(Some(ExistingOrEmpty(doc)), other)
  {
    if other != n.pageIndex && PageKey(other) == PageKey(n.pageIndex) {
      NatToStringInjective(other, n.pageIndex);
    }
  }

  /** `users/<uid>/personalized_audio/<storyId>/page_<n>_<lang>.mp3`, where the audio is stored. */
  function StoragePath(uid: string, storyId: string, pageIndex: nat, lang: Lang): (p: string)
    ensures StoryFolder(uid, storyId) <= p
    ensures |p| >= 4 && p[|p| - 4..] == ".mp3"
  {
    StoryFolder(uid, storyId) + "page_" + PageFileName(pageIndex, lang)
  }

  function StoryFolder(uid: string, storyId: string): string
  {
    "users/" + uid + "/personalized_audio/" + storyId + "/"
  }

  /** The part of a storage path after `page_`. */
  function PageFileName(pageIndex: nat, lang: Lang): string
  {
    NatToString(pageIndex) + "_" + LangCode(lang) + ".mp3"
  }

  lemma PageFileNameDistinct(p1: nat, l1: Lang, p2: nat, l2: Lang)
    requires p1 != p2 || l1 != l2
    ensures PageFileName(p1, l1) != PageFileName(p2, l2)
  {
    var n1, n2 := NatToString(p1), NatToString(p2);
    var f1, f2 := PageFileName(p1, l1), PageFileName(p2, l2);
    if |n1| != |n2| {
      assert |f1| != |f2|;
    } else if n1 != n2 {
      assert f1[..|n1|] == n1;
      assert f2[..|n2|] == n2;
    } else {
      NatToStringInjective(p1, p2);
      assert f1[|n1| + 1..|n1| + 3] == LangCode(l1);
      assert f2[|n2| + 1..|n2| + 3] == LangCode(l2);
    }
  }

  /** Within one story folder, different pages or languages never share a file. */
  lemma StoragePathDistinct(uid: string, storyId: string, p1: nat, l1: Lang, p2: nat, l2: Lang)
    requires p1 != p2 || l1 != l2
    ensures StoragePath(uid, storyId, p1, l1) != StoragePath(uid, storyId, p2, l2)
  {
    var folder := StoryFolder(uid, storyId) + "page_";
    var f1, f2 := PageFileName(p1, l1), PageFileName(p2, l2);
    assert StoragePath(uid, storyId, p1, l1) == folder + f1;
    assert StoragePath(uid, storyId, p2, l2) == folder + f2;
    PageFileNameDistinct(p1, l1, p2, l2);
    assert (folder + f1)[|folder|..] == f1;
    assert (folder + f2)[|folder|..] == f2;
  }

  /** What was sent to the text-to-speech service. */
  datatype SynthesisCall = SynthesisCall(voiceId: string, text: string)

  /**
   * The text-to-speech reply: a non-ok answer with its text, the length of
   * the returned audio, or an error thrown on the way (the request or the
   * body read rejected) with its message.
   */
  datatype TtsReply = TtsFailed(detail: string) | TtsAudio(byteLength: nat) | TtsThrown(message: string)

  /** Which save the handler performs: the merge `set` as written, or the nested write it is meant to be. */
  datatype SaveMode = AsWritten | Corrected

  function SaveAudio(mode: SaveMode, doc: Option<AudioDoc>, n: Narration, url: string): AudioDoc
  {
    match mode
    case AsWritten => SaveAudioUrlAsWritten(doc, n, url)
    case Corrected => SaveAudioUrl(doc, n, url)
  }

  /** The outside world as one request sees it. */
  datatype NarrationEnv = NarrationEnv(
    keyConfigured: bool, personalized: Option<AudioDoc>, tts: TtsReply, signedUrl: string)

  /** The response and every effect of one request. */
  datatype NarrationOutcome = NarrationOutcome(
    response: Response, counter: CounterDoc, personalized: Option<AudioDoc>,
    synthesized: Option<SynthesisCall>, saved: Option<string>)

  /** The audio-size plausibility check: fewer than 200 bytes is a 502. */
  function CheckAudio(byteLength: nat): (r: Option<Rejection>)
    ensures r.None? <==> byteLength >= MinAudioBytes
    ensures r.Some? ==> r.value.status == BadGateway
  {
    if byteLength < MinAudioBytes then Some(Rejection(BadGateway, "Invalid audio returned from ElevenLabs")) else None
  }

  /** Steps after validation: key check, cached lookup, synthesis, size check, save. */
  function Produce(uid: string, counter: CounterDoc, n: Narration, env: NarrationEnv, mode: SaveMode): (o: NarrationOutcome)
    ensures o.counter == counter
    ensures !env.keyConfigured ==> o.response.status == ServerErrorStatus && o.synthesized.None?
    ensures o.synthesized.Some? ==> env.keyConfigured && o.synthesized.value == SynthesisCall(n.voiceId, n.text)
    ensures o.saved.Some? ==> o.synthesized.Some? && o.response == Response(OkStatus, AudioBody(env.signedUrl, false))
    ensures o.personalized != env.personalized ==> o.saved.Some?
    ensures o.response.body.AudioBody? && o.response.body.cached ==> o.synthesized.None?
    ensures o.response.body.AudioBody? && !o.response.body.cached ==>
      o.response.body.audioUrl == env.signedUrl && o.personalized == Some(SaveAudio(mode, env.personalized, n, env.signedUrl))
    ensures o.response.body.AudioBody? && o.response.body.cached ==>
      CachedAudioUrl(env.personalized, n.pageIndex) == Some(o.response.body.audioUrl)
    ensures env.keyConfigured && CachedAudioUrl(env.personalized, n.pageIndex).Some? ==>
      o.response == Response(OkStatus, AudioBody(CachedAudioUrl(env.personalized, n.pageIndex).value, true))
    ensures o.saved.Some? ==>
      env.tts.TtsAudio? && env.tts.byteLength >= MinAudioBytes &&
      o.saved.value == StoragePath(uid, n.storyId, n.pageIndex, n.lang)
    ensures env.keyConfigured && CachedAudioUrl(env.personalized, n.pageIndex).None? &&
            env.tts.TtsAudio? && env.tts.byteLength >= MinAudioBytes ==>
      o.response == Response(OkStatus, AudioBody(env.signedUrl, false)) &&
      o.saved == Some(StoragePath(uid, n.storyId, n.pageIndex, n.lang))
    ensures env.keyConfigured && CachedAudioUrl(env.personalized, n.pageIndex).None? &&
            (env.tts.TtsFailed? || (env.tts.TtsAudio? && env.tts.byteLength < MinAudioBytes)) ==>
      o.response.status == BadGateway && o.saved.None? && o.personalized == env.personalized
    ensures env.keyConfigured && CachedAudioUrl(env.personalized, n.pageIndex).None? && env.tts.TtsThrown? ==>
      o.response == CatchResponse(Thrown(None, env.tts.message)) && o.response.status == ServerErrorStatus &&
      o.saved.None? && o.personalized == env.personalized
  {
    if !env.keyConfigured then
      NarrationOutcome(RejectionResponse(Rejection(ServerErrorStatus, "Server not configured (missing ELEVENLABS_KEY)")),
                       counter, env.personalized, None, None)
    else match CachedAudioUrl(env.personalized, n.pageIndex)
      case Some(url) =>
        NarrationOutcome(Response(OkStatus, AudioBody(url, true)), counter, env.personalized, None, None)
      case None =>
        var call := Some(SynthesisCall(n.voiceId, n.text));
        match env.tts
        case TtsFailed(detail) =>
          NarrationOutcome(Response(BadGateway, ErrorBody("ElevenLabs TTS failed", Some(detail))),
                           counter, env.personalized, call, None)
        case TtsThrown(message) =>
          NarrationOutcome(CatchResponse(Thrown(None, message)), counter, env.personalized, call, None)
        case TtsAudio(len) =>
          if CheckAudio(len).Some? then
            NarrationOutcome(RejectionResponse(CheckAudio(len).value), counter, env.personalized, call, None)
          else
            NarrationOutcome(Response(OkStatus, AudioBody(env.signedUrl, false)), counter,
                             Some(SaveAudio(mode, env.personalized, n, env.signedUrl)), call,
                             Some(StoragePath(uid, n.storyId, n.pageIndex, n.lang)))
  }

  /**
   * One call of `generateNarration` (a POST). Nothing is synthesized or
   * saved unless the caller is authenticated, admitted and the request is
   * valid; a cached answer never synthesizes.
   */
  function GenerateNarration(header: string, verify: string -> Option<string>, counter: CounterDoc, now: int,
                             req: NarrationRequest, env: NarrationEnv, mode: SaveMode): (o: NarrationOutcome)
    ensures o.synthesized.Some? ==>
      VerifyFirebaseAuth(header, verify).Ok? && ValidateNarration(req).Ok? &&
      o.synthesized.value == SynthesisCall(ValidateNarration(req).value.voiceId, ValidateNarration(req).value.text)
    ensures o.saved.Some? ==> o.synthesized.Some? && o.response == Response(OkStatus, AudioBody(env.signedUrl, false))
    ensures o.personalized != env.personalized ==> o.saved.Some?
    ensures o.response.body.AudioBody? && o.response.body.cached ==> o.synthesized.None?
    ensures VerifyFirebaseAuth(header, verify).Err? ==> o.counter == counter && o.response.status == Unauthenticated
    ensures VerifyFirebaseAuth(header, verify).Ok? &&
            Transition(counter, now, NarrationWindowMs, NarrationMaxRequests).0 == Admitted &&
            ValidateNarration(req).Ok? ==>
      o == Produce(VerifyFirebaseAuth(header, verify).value, Transition(counter, now, NarrationWindowMs, NarrationMaxRequests).1,
                   ValidateNarration(req).value, env, mode)
    ensures o.response.body.AudioBody? ==>
      VerifyFirebaseAuth(header, verify).Ok? && ValidateNarration(req).Ok? &&
      o == Produce(VerifyFirebaseAuth(header, verify).value, Transition(counter, now, NarrationWindowMs, NarrationMaxRequests).1,
                   ValidateNarration(req).value, env, mode)
  {
    match VerifyFirebaseAuth(header, verify)
    case Err(e) => NarrationOutcome(CatchResponse(e), counter, env.personalized, None, None)
    case Ok(uid) =>
      var (admission, counter') := Transition(counter, now, NarrationWindowMs, NarrationMaxRequests);
      if admission == Rejected then
        NarrationOutcome(CatchResponse(TooManyRequestsError), counter', env.personalized, None, None)
      else match ValidateNarration(req)
        case Err(rejection) =>
          NarrationOutcome(RejectionResponse(rejection), counter', env.personalized, None, None)
        case Ok(n) => Produce(uid, counter', n, env, mode)
  }

  /**
   * An invalid request is answered with its rejection before any work: no
   * synthesis, no save, the document untouched; it still used up one
   * admission of the rate limiter, which runs first.
   */
  lemma InvalidRequestDoesNoWork(header: string, verify: string -> Option<string>, counter: CounterDoc, now: int,
                                 req: NarrationRequest, env: NarrationEnv, mode: SaveMode)
    requires VerifyFirebaseAuth(header, verify).Ok?
    requires Transition(counter, now, NarrationWindowMs, NarrationMaxRequests).0 == Admitted
    requires ValidateNarration(req).Err?
    ensures var o := GenerateNarration(header, verify, counter, now, req, env, mode);
      o.response == RejectionResponse(ValidateNarration(req).error) &&
      o.synthesized.None? && o.saved.None? && o.personalized == env.personalized &&
      o.counter == Transition(counter, now, NarrationWindowMs, NarrationMaxRequests).1
  {
  }

  /** A rate-limited caller gets 429 and the stored record is not changed. */
  lemma RateLimitedRequestRejected(header: string, verify: string -> Option<string>, counter: CounterDoc, now: int,
                                   req: NarrationRequest, env: NarrationEnv, mode: SaveMode)
    requires VerifyFirebaseAuth(header, verify).Ok?
    requires ResetAt(counter) > now && Count(counter) >= NarrationMaxRequests
    ensures var o := GenerateNarration(header, verify, counter, now, req, env, mode);
      o.response.status == TooManyRequests && o.counter == counter && o.synthesized.None?
  {
  }

  /**
   * Once a request has produced audio, the next admitted request from the
   * same user for the same story and page is answered from the document
   * with the same URL and no synthesis, whatever its language, voice or text:
   * the lookup is keyed by the page index alone. This holds for the
   * corrected save; `AsWrittenRequestSynthesizesAgain` shows the save as
   * written loses it.
   */
  lemma SecondRequestServedFromCache(header: string, verify: string -> Option<string>,
                                     counter: CounterDoc, now: int, req: NarrationRequest, env: NarrationEnv,
                                     counter2: CounterDoc, now2: int, req2: NarrationRequest, env2: NarrationEnv)
    requires GenerateNarration(header, verify, counter, now, req, env, Corrected).response == Response(OkStatus, AudioBody(env.signedUrl, false))
    requires env.signedUrl != []
    requires Transition(counter2, now2, NarrationWindowMs, NarrationMaxRequests).0 == Admitted
    requires ValidateNarration(req2).Ok? && ValidateNarration(req).Ok?
    requires ValidateNarration(req2).value.storyId == ValidateNarration(req).value.storyId
    requires ValidateNarration(req2).value.pageIndex == ValidateNarration(req).value.pageIndex
    requires env2.keyConfigured
    requires env2.personalized == GenerateNarration(header, verify, counter, now, req, env, Corrected).personalized
    ensures var o2 := GenerateNarration(header, verify, counter2, now2, req2, env2, Corrected);
      o2.response == Response(OkStatus, AudioBody(env.signedUrl, true)) && o2.synthesized.None?
  {
    var o := GenerateNarration(header, verify, counter, now, req, env, Corrected);
    var n, n2 := ValidateNarration(req).value, ValidateNarration(req2).value;
    assert o.personalized == Some(SaveAudioUrl(env.personalized, n, env.signedUrl));
    CacheRoundTrip(env.personalized, n, env.signedUrl, n.pageIndex);
    assert CachedAudioUrl(env2.personalized, n2.pageIndex) == Some(env.signedUrl);
  }

  /**
   * The handler as written: after a request has produced audio and saved its
   * URL, the next admitted valid request of the same user for the same story and page
   * does not find it and calls the text-to-speech service again.
   */
  lemma AsWrittenRequestSynthesizesAgain(header: string, verify: string -> Option<string>,
                                         counter: CounterDoc, now: int, req: NarrationRequest, env: NarrationEnv,
                                         counter2: CounterDoc, now2: int, req2: NarrationRequest, env2: NarrationEnv)
    requires GenerateNarration(header, verify, counter, now, req, env, AsWritten).response == Response(OkStatus, AudioBody(env.signedUrl, false))
    requires Transition(counter2, now2, NarrationWindowMs, NarrationMaxRequests).0 == Admitted
    requires ValidateNarration(req2).Ok? && ValidateNarration(req).Ok?
    requires ValidateNarration(req2).value.storyId == ValidateNarration(req).value.storyId
    requires ValidateNarration(req2).value.pageIndex == ValidateNarration(req).value.pageIndex
    requires env2.keyConfigured
    requires env2.personalized == GenerateNarration(header, verify, counter, now, req, env, AsWritten).personalized
    ensures var o2 := GenerateNarration(header, verify, counter2, now2, req2, env2, AsWritten);
      o2.synthesized.Some? && !(o2.response.body.AudioBody? && o2.response.body.cached)
  {
    FreshAsWrittenAnswerLeavesNoCache(header, verify, counter, now, req, env);
    UncachedRequestSynthesizes(header, verify, counter2, now2, req2, env2, AsWritten);
  }

  /** A fresh answer under the as-written save leaves the page's lookup empty. */
  lemma FreshAsWrittenAnswerLeavesNoCache(header: string, verify: string -> Option<string>,
                                          counter: CounterDoc, now: int, req: NarrationRequest, env: NarrationEnv)
    requires GenerateNarration(header, verify, counter, now, req, env, AsWritten).response == Response(OkStatus, AudioBody(env.signedUrl, false))
    ensures ValidateNarration(req).Ok?
    ensures CachedAudioUrl(GenerateNarration(header, verify, counter, now, req, env, AsWritten).personalized,
                           ValidateNarration(req).value.pageIndex) == None
  {
    var n := ValidateNarration(req).value;
    var o := GenerateNarration(header, verify, counter, now, req, env, AsWritten);
    assert o.personalized == Some(SaveAudioUrlAsWritten(env.personalized, n, env.signedUrl));
    AsWrittenSaveMissesCache(env.personalized, n, env.signedUrl, n.pageIndex);
  }

  /** An admitted, valid, configured request whose page has no cached URL calls the synthesizer and is not a cached answer. */
  lemma UncachedRequestSynthesizes(header: string, verify: string -> Option<string>,
                                   counter: CounterDoc, now: int, req: NarrationRequest, env: NarrationEnv, mode: SaveMode)
    requires VerifyFirebaseAuth(header, verify).Ok?
    requires Transition(counter, now, NarrationWindowMs, NarrationMaxRequests).0 == Admitted
    requires ValidateNarration(req).Ok? && env.keyConfigured
    requires CachedAudioUrl(env.personalized, ValidateNarration(req).value.pageIndex) == None
    ensures var o := GenerateNarration(header, verify, counter, now, req, env, mode);
      o.synthesized.Some? && !(o.response.body.AudioBody? && o.response.body.cached)
  {
  }
}

=== FILE: parent_voice.dfy ===
/**
 * `parentVoiceCreate` in functions/src/index.ts: authenticate, rate-limit
 * (3 requests an hour), check the uploaded sample, send it to the voice
 * service and save the returned voice id in the user's audio settings.
 * Base64 decoding is not modelled: the decoded byte length is an input.
 */
module ParentVoice {
  import opened Common
  import opened Text
  import opened Http
  import opened Auth
  import opened RateLimit

  const VoiceWindowMs := 60 * 60 * 1000
  const VoiceMaxRequests := 3
  const MinSampleBytes := 200
  const MaxSampleBytes := 12 * 1024 * 1024
  const DefaultVoiceName := "Parent Voice"

  const BadRequest := 400
  const PayloadTooLarge := 413
  const BadGateway := 502

  datatype VoiceRequest = VoiceRequest(audioBase64: JsValue, mimeType: JsValue, name: JsValue)

  /** The multipart form sent to the voice service: the voice name, the sample's content type and its size in bytes. */
  datatype VoiceUpload = VoiceUpload(name: string, contentType: string, sampleBytes: nat)

  /** A string field that is present and not blank. */
  predicate Filled(v: JsValue)
  {
    v.JsString? && Trim(v.s) != []
  }

  /** The `name` form field: the trimmed name when it is not blank, else "Parent Voice". */
  function VoiceName(name: JsValue): (r: string)
    ensures r != [] && Trimmed(r)
    ensures Filled(name) ==> r == Trim(name.s)
    ensures !Filled(name) ==> r == DefaultVoiceName
  {
    if Filled(name) then Trim(name.s) else DefaultVoiceName
  }

  /**
   * The upload checks, in order: audioBase64 present (400), mimeType
   * present (400), the service key configured (500), at least 200 decoded
   * bytes (400), at most 12 MiB (413).
   */
  function ValidateUpload(req: VoiceRequest, keyConfigured: bool, decodedBytes: nat): (r: Result<VoiceUpload, Rejection>)
    ensures r.Ok? <==>
      Filled(req.audioBase64) && Filled(req.mimeType) && keyConfigured &&
      MinSampleBytes <= decodedBytes <= MaxSampleBytes
    ensures r.Ok? ==>
      r.value == VoiceUpload(VoiceName(req.name), Trim(req.mimeType.s), decodedBytes) && r.value.contentType != []
    ensures !Filled(req.audioBase64) ==> r == Err(Rejection(BadRequest, "Missing audioBase64"))
    ensures Filled(req.audioBase64) && !Filled(req.mimeType) ==> r == Err(Rejection(BadRequest, "Missing mimeType"))
    ensures Filled(req.audioBase64) && Filled(req.mimeType) && !keyConfigured ==>
      r == Err(Rejection(ServerErrorStatus, "Server not configured (missing ELEVENLABS_KEY)"))
    ensures Filled(req.audioBase64) && Filled(req.mimeType) && keyConfigured && decodedBytes < MinSampleBytes ==>
      r == Err(Rejection(BadRequest, "Audio too short"))
    ensures r.Err? && r.error.status == PayloadTooLarge <==>
      Filled(req.audioBase64) && Filled(req.mimeType) && keyConfigured && decodedBytes > MaxSampleBytes
  {
    if !Filled(req.audioBase64) then Err(Rejection(BadRequest, "Missing audioBase64"))
    else if !Filled(req.mimeType) then Err(Rejection(BadRequest, "Missing mimeType"))
    else if !keyConfigured then Err(Rejection(ServerErrorStatus, "Server not configured (missing ELEVENLABS_KEY)"))
    else if decodedBytes < MinSampleBytes then Err(Rejection(BadRequest, "Audio too short"))
    else if decodedBytes > MaxSampleBytes then Err(Rejection(PayloadTooLarge, "Audio too large (max 12MB)"))
    else Ok(VoiceUpload(VoiceName(req.name), Trim(req.mimeType.s), decodedBytes))
  }

  /**
   * The voice service's reply: a non-ok answer with its text, the `voice_id`
   * field of its JSON answer, or an error thrown on the way (the request
   * rejected, or the body not JSON) with its message.
   */
  datatype VoiceReply = VoiceFailed(detail: string) | VoiceCreated(voiceId: JsValue) | VoiceThrown(message: string)

  /** The voice id from a successful reply: its trimmed `voice_id` when that is a non-blank string, else a 502. */
  function VoiceIdFromReply(voiceId: JsValue): (r: Result<string, Rejection>)
    ensures r.Ok? <==> Filled(voiceId)
    ensures r.Ok? ==> r.value == Trim(voiceId.s) && r.value != [] && Trimmed(r.value)
    ensures r.Err? ==> r.error == Rejection(BadGateway, "Invalid response from ElevenLabs")
  {
    var id := if voiceId.JsString? then Trim(voiceId.s) else "";
    if id == [] then Err(Rejection(BadGateway, "Invalid response from ElevenLabs")) else Ok(id)
  }

  /** The response and every effect of one request. */
  datatype VoiceOutcome = VoiceOutcome(
    response: Response, counter: CounterDoc, sent: Option<VoiceUpload>, savedVoiceId: Option<string>)

  /**
   * One call of `parentVoiceCreate` (a POST). A sample reaches the voice
   * service only from an authenticated, admitted caller and only when it
   * passed every check; a voice id is saved only when the service returned a
   * non-blank one, and it is then the response.
   */
  function ParentVoiceCreate(header: string, verify: string -> Option<string>, counter: CounterDoc, now: int,
                             req: VoiceRequest, keyConfigured: bool, decodedBytes: nat, reply: VoiceReply): (o: VoiceOutcome)
    ensures o.sent.Some? ==>
      VerifyFirebaseAuth(header, verify).Ok? &&
      Transition(counter, now, VoiceWindowMs, VoiceMaxRequests).0 == Admitted &&
      ValidateUpload(req, keyConfigured, decodedBytes) == Ok(o.sent.value)
    ensures o.savedVoiceId.Some? ==>
      o.sent.Some? && o.savedVoiceId.value != [] && Trimmed(o.savedVoiceId.value) &&
      o.response == Response(OkStatus, VoiceBody(o.savedVoiceId.value))
    ensures o.savedVoiceId.Some? ==> reply.VoiceCreated? && VoiceIdFromReply(reply.voiceId) == Ok(o.savedVoiceId.value)
    ensures o.response.status == OkStatus ==> o.savedVoiceId.Some?
    ensures VerifyFirebaseAuth(header, verify).Err? ==> o.counter == counter && o.response.status == Unauthenticated
    ensures VerifyFirebaseAuth(header, verify).Ok? &&
            Transition(counter, now, VoiceWindowMs, VoiceMaxRequests).0 == Admitted &&
            ValidateUpload(req, keyConfigured, decodedBytes).Ok? ==>
      o.sent == Some(ValidateUpload(req, keyConfigured, decodedBytes).value) &&
      o.counter == Transition(counter, now, VoiceWindowMs, VoiceMaxRequests).1 &&
      (reply.VoiceCreated? && Filled(reply.voiceId) ==>
         o.savedVoiceId == Some(Trim(reply.voiceId.s)) && o.response == Response(OkStatus, VoiceBody(Trim(reply.voiceId.s)))) &&
      (reply.VoiceCreated? && !Filled(reply.voiceId) ==>
         o.response == RejectionResponse(Rejection(BadGateway, "Invalid response from ElevenLabs")) && o.savedVoiceId.None?) &&
      (reply.VoiceFailed? ==>
         o.response == Response(BadGateway, ErrorBody("ElevenLabs voice create failed", Some(reply.detail))) &&
         o.savedVoiceId.None?) &&
      (reply.VoiceThrown? ==>
         o.response == CatchResponse(Thrown(None, reply.message)) && o.response.status == ServerErrorStatus &&
         o.savedVoiceId.None?)
  {
    match VerifyFirebaseAuth(header, verify)
    case Err(e) => VoiceOutcome(CatchResponse(e), counter, None, None)
    case Ok(uid) =>
      var (admission, counter') := Transition(counter, now, VoiceWindowMs, VoiceMaxRequests);
      if admission == Rejected then
        VoiceOutcome(CatchResponse(TooManyRequestsError), counter', None, None)
      else match ValidateUpload(req, keyConfigured, decodedBytes)
        case Err(rejection) => VoiceOutcome(RejectionResponse(rejection), counter', None, None)
        case Ok(upload) =>
          match reply
          case VoiceFailed(detail) =>
            VoiceOutcome(Response(BadGateway, ErrorBody("ElevenLabs voice create failed", Some(detail))),
                         counter', Some(upload), None)
          case VoiceThrown(message) => VoiceOutcome(CatchResponse(Thrown(None, message)), counter', Some(upload), None)
          case VoiceCreated(field) =>
            match VoiceIdFromReply(field)
            case Err(rejection) => VoiceOutcome(RejectionResponse(rejection), counter', Some(upload), None)
            case Ok(voiceId) => VoiceOutcome(Response(OkStatus, VoiceBody(voiceId)), counter', Some(upload), Some(voiceId))
  }

  /** An oversized sample is refused with 413 and never sent, whatever the service would have replied. */
  lemma OversizedSampleNeverSent(header: string, verify: string -> Option<string>, counter: CounterDoc, now: int,
                                 req: VoiceRequest, decodedBytes: nat, reply: VoiceReply)
    requires VerifyFirebaseAuth(header, verify).Ok?
    requires Transition(counter, now, VoiceWindowMs, VoiceMaxRequests).0 == Admitted
    requires Filled(req.audioBase64) && Filled(req.mimeType)
    requires decodedBytes > MaxSampleBytes
    ensures var o := ParentVoiceCreate(header, verify, counter, now, req, true, decodedBytes, reply);
      o.sent.None? && o.response.status == PayloadTooLarge
  {
  }

  /** A rate-limited caller gets 429, the stored record is not changed and nothing is sent. */
  lemma RateLimitedVoiceRejected(header: string, verify: string -> Option<string>, counter: CounterDoc, now: int,
                                 req: VoiceRequest, keyConfigured: bool, decodedBytes: nat, reply: VoiceReply)
    requires VerifyFirebaseAuth(header, verify).Ok?
    requires ResetAt(counter) > now && Count(counter) >= VoiceMaxRequests
    ensures var o := ParentVoiceCreate(header, verify, counter, now, req, keyConfigured, decodedBytes, reply);
      o.response.status == TooManyRequests && o.counter == counter && o.sent.None? && o.savedVoiceId.None?
  {
  }

  /**
   * An admitted caller whose upload fails a check gets that check's rejection;
   * nothing is sent or saved, and the counter still advances.
   */
  lemma InvalidUploadSendsNothing(header: string, verify: string -> Option<string>, counter: CounterDoc, now: int,
                                  req: VoiceRequest, keyConfigured: bool, decodedBytes: nat, reply: VoiceReply)
    requires VerifyFirebaseAuth(header, verify).Ok?
    requires Transition(counter, now, VoiceWindowMs, VoiceMaxRequests).0 == Admitted
    requires ValidateUpload(req, keyConfigured, decodedBytes).Err?
    ensures var o := ParentVoiceCreate(header, verify, counter, now, req, keyConfigured, decodedBytes, reply);
      o.response == RejectionResponse(ValidateUpload(req, keyConfigured, decodedBytes).error) &&
      o.sent.None? && o.savedVoiceId.None? &&
      o.counter == Transition(counter, now, VoiceWindowMs, VoiceMaxRequests).1
  {
  }
}

=== FILE: preflight.dfy ===
/**
 * `run` in tools/preflight_content_check.py: one pass over the colouring
 * pages that names each page, flags duplicate ids and missing paths, checks
 * each local file (and each mask's verdicts) or remote URL, then adds the
 * audio issues and derives the exit status. The file system, the URL probes
 * and the audio check are inputs.
 */
module Preflight {
  import opened Common
  import opened Text
  import opened Issues
  import opened AssetPaths
  import opened MaskCheck

  /** `page.get(key, default)`. */
  function GetOr(page: Page, key: string, default: PyValue): PyValue
  {
    if key in page then page[key] else default
  }

  /** The id field as `run` reads it: `str(page.get("id", "")).strip()`, possibly blank. */
  function RawId(page: Page): (r: string)
    ensures Trimmed(r)
  {
    Trim(Str(GetOr(page, "id", PyStr(""))))
  }

  /** The id of the page at index `i`: its stripped id, or `row_<i>` when that is blank. */
  function PageId(page: Page, i: nat): (id: string)
    ensures id != []
    ensures RawId(page) != [] ==> id == RawId(page)
    ensures RawId(page) == [] ==> id == "row_" + NatToString(i)
  {
    var raw := RawId(page);
    if raw != [] then raw else "row_" + NatToString(i)
  }

  /** Two pages with blank ids never share an id: the default names differ by index. */
  lemma DefaultIdsDistinct(p: Page, i: nat, q: Page, j: nat)
    requires RawId(p) == [] && RawId(q) == [] && i != j
    ensures PageId(p, i) != PageId(q, j)
  {
    if NatToString(i) == NatToString(j) {
      NatToStringInjective(i, j);
    }
    PrependDistinct("row_", NatToString(i), NatToString(j));
  }

  lemma PrependDistinct(prefix: string, x: string, y: string)
    requires x != y
    ensures prefix + x != prefix + y
  {
    assert (prefix + x)[|prefix|..] == x;
    assert (prefix + y)[|prefix|..] == y;
  }

  /** The id `run` gives each page, in page order. */
  function PageIds(pages: seq<Page>): (ids: seq<string>)
    ensures |ids| == |pages|
  {
    seq(|pages|, (k: nat) requires k < |pages| => PageId(pages[k], k))
  }

  /** The page at index `i` repeats the id of an earlier page. */
  predicate IsDuplicate(pages: seq<Page>, i: nat)
    requires i < |pages|
  {
    PageIds(pages)[i] in PageIds(pages)[..i]
  }

  function Scope(pid: string): string
  {
    "coloring:" + pid
  }

  function DuplicateIssue(scope: string, pid: string): Issue
  {
    Issue(Warn, scope, DuplicatePageId(pid))
  }


  /** What the file system says about a path: nothing there, or an entry that may or may not be a regular file, with its size and, when opened as an image, what it decodes to. */
  datatype FileState = Missing | Present(isFile: bool, size: nat, image: MaskImage)

  type FileSystem = map<string, FileState>

  function Stat(fs: FileSystem, path: string): FileState
  {
    if path in fs then fs[path] else Missing
  }

  /** `check_exists_nonempty`: one ERROR for a missing path, a non-file, or an empty file; none otherwise. */
  function ExistsIssues(path: string, scope: string, st: FileState): (r: seq<Issue>)
    ensures |r| <= 1 && forall k :: 0 <= k < |r| ==> r[k].level == Error && r[k].scope == scope
    ensures r == [] <==> st.Present? && st.isFile && st.size > 0
  {
    if st.Missing? then [Issue(Error, scope, MissingFile(path))]
    else if !st.isFile then [Issue(Error, scope, NotAFile(path))]
    else if st.size == 0 then [Issue(Error, scope, EmptyFile(path))]
    else []
  }

  /** The outcome of the HEAD request `check_url` sends. */
  datatype UrlProbe =
    | Responded(code: nat)
    | HttpFailure(code: nat)
    | Unreachable(reason: string)
    | CheckFailed(detail: string)

  /**
   * `check_url`: a `gs://` URL gets a WARN and is not requested; otherwise
   * one ERROR for a status of 400 or more, an HTTP error, an unreachable
   * host or any other failure, and none for a status under 400.
   */
  function UrlIssues(url: string, scope: string, probe: UrlProbe): (r: seq<Issue>)
    ensures |r| <= 1 && forall k :: 0 <= k < |r| ==> r[k].scope == scope
    ensures "gs://" <= Lower(url) ==> r == [Issue(Warn, scope, GsUrl(url))]
    ensures !("gs://" <= Lower(url)) ==>
      (r == [] <==> probe.Responded? && probe.code < 400) &&
      forall k :: 0 <= k < |r| ==> r[k].level == Error
  {
    if "gs://" <= Lower(url) then [Issue(Warn, scope, GsUrl(url))]
    else match probe
      case Responded(code) =>
        if code >= 400 then [Issue(Error, scope, UrlHeadFailed(code, url))] else []
      case HttpFailure(code) => [Issue(Error, scope, UrlFailed(code, url))]
      case Unreachable(reason) => [Issue(Error, scope, UrlUnreachable(url, reason))]
      case CheckFailed(detail) => [Issue(Error, scope, UrlCheckFailed(url, detail))]
  }

  /**
   * The checks on a local path: the existence check and, for a mask that
   * exists and is not empty, the mask verdicts after it.
   */
  function LocalIssues(path: string, scope: string, isMask: bool, st: FileState): (r: seq<Issue>)
    ensures ExistsIssues(path, scope, st) <= r
    ensures forall k :: 0 <= k < |r| ==> r[k].scope == scope
  {
    ExistsIssues(path, scope, st)
    + (if isMask && st.Present? && st.size > 0 then MaskIssues(path, st.image, scope) else [])
  }

  /**
   * The issues for one path of a page (`kind` is the label "outline" or
   * "mask"): none for a blank path; for a remote one the URL check when URLs
   * are checked and nothing otherwise; for a local one the checks on the
   * normalised path.
   */
  function TargetIssues(raw: string, scope: string, kind: string, checkUrls: bool,
                        fs: FileSystem, probes: string -> UrlProbe): (r: seq<Issue>)
    ensures forall k :: 0 <= k < |r| ==> r[k].scope == scope + ":" + kind
  {
    var s := scope + ":" + kind;
    if raw == [] then []
    else if IsRemote(raw) then
      if checkUrls then UrlIssues(raw, s, probes(raw)) else []
    else
      var local := NormalizedAsset(raw);
      LocalIssues(local, s, kind == "mask", Stat(fs, local))
  }

  /** The ERRORs for a page whose outline or mask path is blank, outline first. */
  function MissingIssues(scope: string, outline: string, mask: string): (r: seq<Issue>)
    ensures forall k :: 0 <= k < |r| ==> r[k].level == Error && r[k].scope == scope
    ensures Issue(Error, scope, MissingOutlinePath) in r <==> outline == []
    ensures Issue(Error, scope, MissingMaskPath) in r <==> mask == []
  {
    (if outline == [] then [Issue(Error, scope, MissingOutlinePath)] else [])
    + (if mask == [] then [Issue(Error, scope, MissingMaskPath)] else [])
  }

  /** The checks on both paths of a page, outline first; each is scoped to `scope:outline` or `scope:mask`. */
  function PathIssues(scope: string, outline: string, mask: string, checkUrls: bool,
                      fs: FileSystem, probes: string -> UrlProbe): (r: seq<Issue>)
    ensures forall k :: 0 <= k < |r| ==> r[k].scope == scope + ":" + "outline" || r[k].scope == scope + ":" + "mask"
  {
    TargetIssues(outline, scope, "outline", checkUrls, fs, probes)
    + TargetIssues(mask, scope, "mask", checkUrls, fs, probes)
  }

  /** Every issue is an ERROR or is scoped below `scope`: its scope starts with `scope:`. */
  predicate ErrorOrBelow(r: seq<Issue>, scope: string)
  {
    forall k :: 0 <= k < |r| ==> r[k].level == Error || scope + ":" <= r[k].scope
  }

  lemma ErrorOrBelowAppend(a: seq<Issue>, b: seq<Issue>, scope: string)
    requires ErrorOrBelow(a, scope) && ErrorOrBelow(b, scope)
    ensures ErrorOrBelow(a + b, scope)
  {
  }

  /** The checks after the duplicate test: the missing paths, then each path; none is a WARN on the page's own scope. */
  function PageChecks(page: Page, scope: string, checkUrls: bool, fs: FileSystem, probes: string -> UrlProbe): (r: seq<Issue>)
    ensures ErrorOrBelow(r, scope)
  {
    var (outline, mask) := CollectPaths(page);
    var missing := MissingIssues(scope, outline, mask);
    var paths := PathIssues(scope, outline, mask, checkUrls, fs, probes);
    ErrorOrBelowAppend(missing, paths, scope);
    missing + paths
  }

  /**
   * Everything one page contributes, in `run`'s order: the duplicate WARN,
   * which is there exactly when the page is a duplicate, then the other checks.
   */
  function PageIssues(page: Page, pid: string, duplicate: bool, checkUrls: bool,
                      fs: FileSystem, probes: string -> UrlProbe): (r: seq<Issue>)
    ensures DuplicateIssue(Scope(pid), pid) in r <==> duplicate
  {
    var scope := Scope(pid);
    var checks := PageChecks(page, scope, checkUrls, fs, probes);
    assert forall x :: x in checks ==> x != DuplicateIssue(scope, pid);
    (if duplicate then [DuplicateIssue(scope, pid)] else []) + checks
  }

  /** The issues of the page at index `i`. */
  function PageIssuesAt(pages: seq<Page>, i: nat, checkUrls: bool, fs: FileSystem, probes: string -> UrlProbe): seq<Issue>
    requires i < |pages|
  {
    PageIssues(pages[i], PageId(pages[i], i), IsDuplicate(pages, i), checkUrls, fs, probes)
  }

  /** The issues of every page, page by page, in `run`'s order. */
  function PageReports(pages: seq<Page>, checkUrls: bool, fs: FileSystem, probes: string -> UrlProbe): (r: seq<seq<Issue>>)
    ensures |r| == |pages|
  {
    seq(|pages|, (k: nat) requires k < |pages| => PageIssuesAt(pages, k, checkUrls, fs, probes))
  }

  /** The issues the page loop collects: each page's issues, in page order. */
  function ReportIssues(pages: seq<Page>, checkUrls: bool, fs: FileSystem, probes: string -> UrlProbe): seq<Issue>
  {
    Flatten(PageReports(pages, checkUrls, fs, probes))
  }

  /**
   * A page gets the "Duplicate page id" WARN exactly when an earlier page
   * produced the same id.
   */
  lemma DuplicateWarning(pages: seq<Page>, i: nat, checkUrls: bool, fs: FileSystem, probes: string -> UrlProbe)
    requires i < |pages|
    ensures var pid := PageId(pages[i], i);
      DuplicateIssue(Scope(pid), pid) in PageIssuesAt(pages, i, checkUrls, fs, probes) <==>
      exists j :: 0 <= j < i && PageId(pages[j], j) == pid
  {
    DuplicateMeansEarlier(pages, i);
  }

  /** `IsDuplicate` says what it is meant to: an earlier page has the same id. */
  lemma DuplicateMeansEarlier(pages: seq<Page>, i: nat)
    requires i < |pages|
    ensures IsDuplicate(pages, i) <==> exists j :: 0 <= j < i && PageId(pages[j], j) == PageId(pages[i], i)
  {
    var ids := PageIds(pages);
    var pid := ids[i];
    if exists j :: 0 <= j < i && PageId(pages[j], j) == pid {
      var j :| 0 <= j < i && PageId(pages[j], j) == pid;
      assert ids[..i][j] == pid;
    }
    if pid in ids[..i] {
      var j :| 0 <= j < i && ids[..i][j] == pid;
      assert PageId(pages[j], j) == pid;
    }
  }

  /** The outline path or the mask path of the page is blank. */
  predicate HasBlankPath(page: Page)
  {
    CollectPaths(page).0 == [] || CollectPaths(page).1 == []
  }

  /** A page with a blank outline path or a blank mask path gets an ERROR among its issues. */
  lemma BlankPathReported(pages: seq<Page>, k: nat, checkUrls: bool, fs: FileSystem, probes: string -> UrlProbe)
    requires k < |pages|
    ensures HasBlankPath(pages[k]) ==> HasError(PageIssuesAt(pages, k, checkUrls, fs, probes))
  {
    if HasBlankPath(pages[k]) {
      var pid := PageId(pages[k], k);
      var scope := Scope(pid);
      var (outline, mask) := CollectPaths(pages[k]);
      var missing := MissingIssues(scope, outline, mask);
      assert missing[0].level == Error;
      var paths := PathIssues(scope, outline, mask, checkUrls, fs, probes);
      ErrorAppend(missing, paths);
      var dup := if IsDuplicate(pages, k) then [DuplicateIssue(scope, pid)] else [];
      assert PageIssuesAt(pages, k, checkUrls, fs, probes) == dup + (missing + paths);
      ErrorAppend(dup, missing + paths);
    }
  }

  /** A page with a blank path makes the whole report hold an ERROR. */
  lemma BlankPathFailsReport(pages: seq<Page>, k: nat, checkUrls: bool, fs: FileSystem, probes: string -> UrlProbe)
    requires k < |pages| && HasBlankPath(pages[k])
    ensures HasError(ReportIssues(pages, checkUrls, fs, probes))
  {
    var blocks := PageReports(pages, checkUrls, fs, probes);
    BlankPathReported(pages, k, checkUrls, fs, probes);
    assert HasError(blocks[k]);
    FlattenHasError(blocks);
  }

  /** `check_exists_nonempty` and, for a mask, `check_mask`, appending to `issues`. */
  method CheckLocal(path: string, scope: string, isMask: bool, st: FileState, issues: seq<Issue>) returns (out: seq<Issue>)
    ensures out == issues + LocalIssues(path, scope, isMask, st)
  {
    out := issues + ExistsIssues(path, scope, st);
    if isMask && st.Present? && st.size > 0 {
      out := CheckMask(path, st.image, scope, out);
      AppendAssoc(issues, ExistsIssues(path, scope, st), MaskIssues(path, st.image, scope));
    }
  }

  /** The checks on one path of a page, appending to `issues` as `run` does. */
  method CheckTarget(raw: string, scope: string, kind: string, checkUrls: bool,
                     fs: FileSystem, probes: string -> UrlProbe, issues: seq<Issue>) returns (out: seq<Issue>)
    ensures out == issues + TargetIssues(raw, scope, kind, checkUrls, fs, probes)
  {
    out := issues;
    if raw == [] {
      return;
    }
    var s := scope + ":" + kind;
    if IsRemote(raw) {
      if checkUrls {
        out := out + UrlIssues(raw, s, probes(raw));
      }
      return;
    }
    var local := NormalizeLocalAsset(raw);
    out := CheckLocal(local, s, kind == "mask", Stat(fs, local), out);
  }

  /** The two missing-path tests of `run`'s loop, appending to `issues`. */
  method AppendMissing(scope: string, outline: string, mask: string, issues: seq<Issue>) returns (out: seq<Issue>)
    ensures out == issues + MissingIssues(scope, outline, mask)
  {
    out := issues;
    if outline == [] {
      out := out + [Issue(Error, scope, MissingOutlinePath)];
    }
    if mask == [] {
      out := out + [Issue(Error, scope, MissingMaskPath)];
      if outline == [] {
        AppendAssoc(issues, [Issue(Error, scope, MissingOutlinePath)], [Issue(Error, scope, MissingMaskPath)]);
      }
    }
  }

  /** The body of `run`'s loop after the duplicate test: the missing-path ERRORs, then the outline and mask checks. */
  method CheckPage(page: Page, scope: string, checkUrls: bool, fs: FileSystem, probes: string -> UrlProbe,
                   issues: seq<Issue>) returns (out: seq<Issue>)
    ensures out == issues + PageChecks(page, scope, checkUrls, fs, probes)
  {
    var (outline, mask) := CollectPaths(page);
    out := AppendMissing(scope, outline, mask, issues);
    ghost var afterMissing := out;
    out := CheckTarget(outline, scope, "outline", checkUrls, fs, probes, out);
    out := CheckTarget(mask, scope, "mask", checkUrls, fs, probes, out);
    AppendAssoc(afterMissing, TargetIssues(outline, scope, "outline", checkUrls, fs, probes),
                TargetIssues(mask, scope, "mask", checkUrls, fs, probes));
    assert out == afterMissing + PathIssues(scope, outline, mask, checkUrls, fs, probes);
    AppendAssoc(issues, MissingIssues(scope, outline, mask), PathIssues(scope, outline, mask, checkUrls, fs, probes));
    assert out == issues + (MissingIssues(scope, outline, mask) + PathIssues(scope, outline, mask, checkUrls, fs, probes));
    assert PageChecks(page, scope, checkUrls, fs, probes) == MissingIssues(scope, outline, mask) + PathIssues(scope, outline, mask, checkUrls, fs, probes);
  }

  /** The duplicate WARN followed by the other checks make up the page's issues. */
  lemma PageAppend(pages: seq<Page>, i: nat, checkUrls: bool, fs: FileSystem, probes: string -> UrlProbe,
                   duplicate: bool, before: seq<Issue>, after: seq<Issue>)
    requires i < |pages| && duplicate == IsDuplicate(pages, i)
    requires var pid := PageId(pages[i], i);
      after == (before + (if duplicate then [DuplicateIssue(Scope(pid), pid)] else []))
               + PageChecks(pages[i], Scope(pid), checkUrls, fs, probes)
    ensures after == before + PageIssuesAt(pages, i, checkUrls, fs, probes)
  {
    var pid := PageId(pages[i], i);
    var dup := if duplicate then [DuplicateIssue(Scope(pid), pid)] else [];
    var checks := PageChecks(pages[i], Scope(pid), checkUrls, fs, probes);
    AppendAssoc(before, dup, checks);
    assert PageIssuesAt(pages, i, checkUrls, fs, probes) == dup + checks;
  }

  /**
   * One round of `run`'s loop: name the page, warn when its id was seen
   * before, record the id, then run the page's other checks.
   */
  method VisitPage(pages: seq<Page>, i: nat, checkUrls: bool, fs: FileSystem, probes: string -> UrlProbe,
                   seen: set<string>, issues: seq<Issue>) returns (seen': set<string>, out: seq<Issue>)
    requires i < |pages|
    requires forall id :: id in seen <==> id in PageIds(pages)[..i]
    ensures forall id :: id in seen' <==> id in PageIds(pages)[..i + 1]
    ensures out == issues + PageIssuesAt(pages, i, checkUrls, fs, probes)
  {
    var page := pages[i];
    var pid := Trim(Str(GetOr(page, "id", PyStr(""))));
    if pid == [] {
      pid := "row_" + NatToString(i);
    }
    var scope := "coloring:" + pid;
    ghost var ids := PageIds(pages);
    assert pid == PageId(pages[i], i) == ids[i];
    SeenStep(ids, i, seen);
    ghost var duplicate := pid in seen;
    assert duplicate == IsDuplicate(pages, i);
    out := issues;
    if pid in seen {
      out := out + [Issue(Warn, scope, DuplicatePageId(pid))];
    }
    seen' := seen + {pid};
    assert scope == Scope(pid) && page == pages[i];
    assert out == issues + (if duplicate then [DuplicateIssue(Scope(pid), pid)] else []);
    ghost var afterDuplicate := out;
    out := CheckPage(page, scope, checkUrls, fs, probes, out);
    assert out == afterDuplicate + PageChecks(pages[i], Scope(pid), checkUrls, fs, probes);
    PageAppend(pages, i, checkUrls, fs, probes, duplicate, issues, out);
  }

  /**
   * `run`'s page loop, with its set of seen ids and its growing issue list.
   */
  method VisitPages(pages: seq<Page>, checkUrls: bool, fs: FileSystem, probes: string -> UrlProbe)
    returns (issues: seq<Issue>)
    ensures issues == ReportIssues(pages, checkUrls, fs, probes)
  {
    ghost var blocks := PageReports(pages, checkUrls, fs, probes);
    issues := [];
    var seen: set<string> := {};
    var i := 0;
    while i < |pages|
      invariant 0 <= i <= |pages|
      invariant forall id :: id in seen <==> id in PageIds(pages)[..i]
      invariant issues == Flatten(blocks[..i])
    {
      seen, issues := VisitPage(pages, i, checkUrls, fs, probes, seen, issues);
      FlattenPrefix(blocks, i);
      i := i + 1;
    }
    assert blocks[..i] == blocks;
  }

  /**
   * `run`: the page loop, then the audio issues; the exit status is 1
   * exactly when some issue is an ERROR, so a page with a blank path always
   * fails the run, and the summary counts add up to the number of issues.
   */
  method Run(pages: seq<Page>, checkUrls: bool, fs: FileSystem, probes: string -> UrlProbe, audioIssues: seq<Issue>)
    returns (issues: seq<Issue>, summary: Summary, exitCode: int)
    ensures issues == ReportIssues(pages, checkUrls, fs, probes) + audioIssues
    ensures summary.errors + summary.warnings + summary.info == |issues|
    ensures summary.errors == CountLevel(issues, Error) && summary.warnings == CountLevel(issues, Warn)
    ensures exitCode == 1 <==> HasError(issues)
    ensures exitCode == 0 || exitCode == 1
    ensures forall k :: 0 <= k < |pages| && HasBlankPath(pages[k]) ==> exitCode == 1
  {
    var pageIssues := VisitPages(pages, checkUrls, fs, probes);
    issues := pageIssues + audioIssues;
    ErrorAppend(pageIssues, audioIssues);
    summary := Summarize(issues);
    exitCode := ExitCode(issues);
    forall k | 0 <= k < |pages| && HasBlankPath(pages[k])
      ensures exitCode == 1
    {
      BlankPathFailsReport(pages, k, checkUrls, fs, probes);
    }
  }
}

=== FILE: rate_limit.dfy ===
/**
 * `rateLimit` in functions/src/index.ts: a fixed-window counter per user and
 * action, kept in the document `users/<uid>/rate_limits/<key>` and updated in
 * one transaction per request. The transaction is modelled as one atomic
 * step: `Transition` on the stored record, and `CounterStore.Admit` on a
 * mutable copy of it.
 */
module RateLimit {
  import opened Common
  import opened Http

  const TooManyRequests := 429

  /**
   * The stored record. A field that is absent, or is not a number, is None;
   * a document that does not exist is `CounterDoc(None, None)`.
   */
  datatype CounterDoc = CounterDoc(count: Option<int>, resetAt: Option<int>)

  const Absent := CounterDoc(None, None)

  datatype Admission = Admitted | Rejected

  /** The counter as the transaction reads it: a missing number counts as 0. */
  function Count(d: CounterDoc): int
  {
    if d.count.Some? then d.count.value else 0
  }

  /** The end of the window as the transaction reads it: a missing number counts as 0. */
  function ResetAt(d: CounterDoc): int
  {
    if d.resetAt.Some? then d.resetAt.value else 0
  }

  /** The error `rateLimit` throws when it turns a request away. */
  const TooManyRequestsError := Thrown(Some(TooManyRequests), "Too many requests")

  /**
   * One transaction at time `now`: in an active window (`resetAt > now`) a
   * request at or over the limit is rejected and nothing is written, any
   * other request increments `count` by a merge write that keeps `resetAt`;
   * in an expired window the record restarts at count 1 for `windowMs`.
   */
  function Transition(d: CounterDoc, now: int, windowMs: int, maxReq: int): (r: (Admission, CounterDoc))
    ensures ResetAt(d) <= now ==> r == (Admitted, CounterDoc(Some(1), Some(now + windowMs)))
    ensures ResetAt(d) > now && Count(d) >= maxReq ==> r == (Rejected, d)
    ensures ResetAt(d) > now && Count(d) < maxReq ==>
      r.0 == Admitted && r.1.count == Some(Count(d) + 1) && r.1.resetAt == d.resetAt
  {
    var resetAt := ResetAt(d);
    var count := Count(d);
    if resetAt > now then
      if count >= maxReq then (Rejected, d)
      else (Admitted, d.(count := Some(count + 1)))
    else
      (Admitted, CounterDoc(Some(1), Some(now + windowMs)))
  }

  /** While the window is active, the count is within the limit (at least 1, since a new window admits one request). */
  predicate WithinLimit(d: CounterDoc, now: int, maxReq: int)
  {
    ResetAt(d) > now ==> Count(d) <= Max(maxReq, 1)
  }

  /** A user with no record yet is within the limit at any time the clock can show. */
  lemma AbsentWithinLimit(now: int, maxReq: int)
    requires now >= 0
    ensures WithinLimit(Absent, now, maxReq)
  {
  }

  /**
   * The bound is kept: if the record was within the limit at an earlier time
   * `earlier`, it is still within it after a transaction at `now`.
   */
  lemma TransitionKeepsLimit(d: CounterDoc, earlier: int, now: int, windowMs: int, maxReq: int)
    requires earlier <= now && WithinLimit(d, earlier, maxReq)
    ensures WithinLimit(Transition(d, now, windowMs, maxReq).1, now, maxReq)
  {
  }

  /** A sequence of transactions at the given times: how many were admitted, and the final record. */
  function Replay(d: CounterDoc, times: seq<int>, windowMs: int, maxReq: int): (r: (nat, CounterDoc))
    ensures r.0 <= |times|
    decreases |times|
  {
    if times == [] then (0, d)
    else
      var (a, d') := Transition(d, times[0], windowMs, maxReq);
      var (n, last) := Replay(d', times[1..], windowMs, maxReq);
      ((if a == Admitted then 1 else 0) + n, last)
  }

  /** Inside an active window that outlasts every request, the count climbs to the limit and stops there. */
  lemma {:induction false} ReplayInsideWindow(d: CounterDoc, times: seq<int>, windowMs: int, maxReq: int)
    requires forall k :: 0 <= k < |times| ==> times[k] < ResetAt(d)
    ensures Replay(d, times, windowMs, maxReq).0 == Min(|times|, Max(maxReq - Count(d), 0))
    ensures ResetAt(Replay(d, times, windowMs, maxReq).1) == ResetAt(d)
    decreases |times|
  {
    if times != [] {
      var (a, d') := Transition(d, times[0], windowMs, maxReq);
      if Count(d) < maxReq {
        assert Count(d') == Count(d) + 1 && ResetAt(d') == ResetAt(d);
      } else {
        assert d' == d;
      }
      ReplayInsideWindow(d', times[1..], windowMs, maxReq);
    }
  }

  /**
   * Admission per window: when the window has expired at the first request
   * and every later request falls inside the new window, exactly
   * min(n, max(maxReq, 1)) of the n requests are admitted.
   */
  lemma AdmissionsPerWindow(d: CounterDoc, times: seq<int>, windowMs: int, maxReq: int)
    requires times != [] && ResetAt(d) <= times[0]
    requires forall k :: 0 <= k < |times| ==> times[0] <= times[k] < times[0] + windowMs
    ensures Replay(d, times, windowMs, maxReq).0 == Min(|times|, Max(maxReq, 1))
  {
    var restarted := CounterDoc(Some(1), Some(times[0] + windowMs));
    assert Transition(d, times[0], windowMs, maxReq) == (Admitted, restarted);
    forall k | 0 <= k < |times[1..]|
      ensures times[1..][k] < ResetAt(restarted)
    {
      assert times[1..][k] == times[k + 1];
    }
    ReplayInsideWindow(restarted, times[1..], windowMs, maxReq);
  }

  /** The rate-limit document of one user and action, updated in place by each admitted request. */
  class CounterStore {
    var count: Option<int>
    var resetAt: Option<int>

    /** The stored record. */
    function Doc(): CounterDoc
      reads this
    {
      CounterDoc(count, resetAt)
    }

    constructor (initial: CounterDoc)
      ensures Doc() == initial
    {
      count := initial.count;
      resetAt := initial.resetAt;
    }

    /** The body of the transaction: read the record, decide, and merge-write the new fields. */
    method Admit(now: int, windowMs: int, maxReq: int) returns (a: Admission)
      modifies this
      ensures (a, Doc()) == Transition(old(Doc()), now, windowMs, maxReq)
      ensures old(WithinLimit(Doc(), now, maxReq)) ==> WithinLimit(Doc(), now, maxReq)
    {
      var storedResetAt := if resetAt.Some? then resetAt.value else 0;
      var storedCount := if count.Some? then count.value else 0;
      if storedResetAt > now {
        if storedCount >= maxReq {
          return Rejected;
        }
        count := Some(storedCount + 1);
      } else {
        count, resetAt := Some(1), Some(now + windowMs);
      }
      a := Admitted;
    }
  }
}

=== FILE: text.dfy ===
/**
 * Strings as sequences of characters: the whitespace trimming done by
 * JavaScript's `trim` and Python's `strip`, ASCII lower-casing, and the
 * decimal rendering of a natural number (JavaScript's `String(n)`, Python's
 * `str(n)` and template interpolation of an integer).
 */
module Text {

  /** The characters both `trim` and `strip` remove (their ASCII part). */
  predicate IsSpace(c: char)
  {
    c == ' ' || c == '\t' || c == '\n' || c == '\r' || c == '\U{0B}' || c == '\U{0C}'
  }

  /** A string with no whitespace at either end. */
  predicate Trimmed(s: string)
  {
    s == [] || (!IsSpace(s[0]) && !IsSpace(s[|s| - 1]))
  }

  /** A string whose last character, if any, is not whitespace. */
  predicate NoTrailingSpace(s: string)
  {
    s == [] || !IsSpace(s[|s| - 1])
  }

  /** The index of the first non-whitespace character of `s` at or after `i`, or `|s|` if there is none. */
  function SkipSpaceForward(s: string, i: nat): (n: nat)
    requires i <= |s|
    ensures i <= n <= |s|
    ensures n < |s| ==> !IsSpace(s[n])
    decreases |s| - i
  {
    if i < |s| && IsSpace(s[i]) then SkipSpaceForward(s, i + 1) else i
  }

  /** Everything `SkipSpaceForward` steps over is whitespace. */
  lemma {:induction false} SkippedForwardIsSpace(s: string, i: nat)
    requires i <= |s|
    ensures forall k :: i <= k < SkipSpaceForward(s, i) ==> IsSpace(s[k])
    decreases |s| - i
  {
    if i < |s| && IsSpace(s[i]) {
      SkippedForwardIsSpace(s, i + 1);
    }
  }

  /** The end of `s[lo..j]` once its trailing whitespace is dropped. */
  function SkipSpaceBackward(s: string, lo: nat, j: nat): (n: nat)
    requires lo <= j <= |s|
    ensures lo <= n <= j
    ensures lo < n ==> !IsSpace(s[n - 1])
    decreases j
  {
    if lo < j && IsSpace(s[j - 1]) then SkipSpaceBackward(s, lo, j - 1) else j
  }

  /** Everything `SkipSpaceBackward` steps over is whitespace. */
  lemma {:induction false} SkippedBackwardIsSpace(s: string, lo: nat, j: nat)
    requires lo <= j <= |s|
    ensures forall k :: SkipSpaceBackward(s, lo, j) <= k < j ==> IsSpace(s[k])
    decreases j
  {
    if lo < j && IsSpace(s[j - 1]) {
      SkippedBackwardIsSpace(s, lo, j - 1);
    }
  }

  /** `r` occurs in `s` at position `i`. */
  predicate OccursAt(r: string, s: string, i: int)
  {
    0 <= i && i + |r| <= |s| && s[i..i + |r|] == r
  }

  /** JavaScript's `s.trim()` and Python's `s.strip()`: `s` without the whitespace at its ends. */
  function Trim(s: string): (r: string)
    ensures Trimmed(r) && |r| <= |s|
  {
    var a := SkipSpaceForward(s, 0);
    var b := SkipSpaceBackward(s, a, |s|);
    s[a..b]
  }

  /** What `Trim` keeps is a piece of `s`, and only whitespace was dropped around it. */
  lemma TrimDropsOnlySpace(s: string)
    ensures exists i :: OccursAt(Trim(s), s, i)
                        && (forall k :: 0 <= k < i ==> IsSpace(s[k]))
                        && (forall k :: i + |Trim(s)| <= k < |s| ==> IsSpace(s[k]))
  {
    var a := SkipSpaceForward(s, 0);
    var b := SkipSpaceBackward(s, a, |s|);
    SkippedForwardIsSpace(s, 0);
    SkippedBackwardIsSpace(s, a, |s|);
    assert OccursAt(Trim(s), s, a);
  }

  /** A string without whitespace at its ends is left alone by `Trim`. */
  lemma TrimOfTrimmed(s: string)
    requires Trimmed(s)
    ensures Trim(s) == s
  {
    if s != [] {
      assert SkipSpaceForward(s, 0) == 0;
      assert SkipSpaceBackward(s, 0, |s|) == |s|;
    }
  }

  /** `Trim` is idempotent. */
  lemma TrimIdempotent(s: string)
    ensures Trim(Trim(s)) == Trim(s)
  {
    TrimOfTrimmed(Trim(s));
  }

  /** ASCII lower-casing of one character. */
  function LowerChar(c: char): char
  {
    if 'A' <= c <= 'Z' then (c as int - 'A' as int + 'a' as int) as char else c
  }

  /** JavaScript's `toLowerCase` and Python's `lower`, on the ASCII letters. */
  function Lower(s: string): (r: string)
    ensures |r| == |s|
    ensures forall k :: 0 <= k < |s| ==> r[k] == LowerChar(s[k])
  {
    seq(|s|, i requires 0 <= i < |s| => LowerChar(s[i]))
  }

  lemma LowerIdempotent(s: string)
    ensures Lower(Lower(s)) == Lower(s)
  {
  }

  /** Lower-casing does not turn a character into whitespace or out of it. */
  lemma LowerCharKeepsSpace(c: char)
    ensures IsSpace(LowerChar(c)) == IsSpace(c)
  {
  }

  lemma {:induction false} SkipForwardLower(s: string, i: nat)
    requires i <= |s|
    ensures SkipSpaceForward(Lower(s), i) == SkipSpaceForward(s, i)
    decreases |s| - i
  {
    if i < |s| {
      LowerCharKeepsSpace(s[i]);
      if IsSpace(s[i]) {
        SkipForwardLower(s, i + 1);
      }
    }
  }

  lemma {:induction false} SkipBackwardLower(s: string, lo: nat, j: nat)
    requires lo <= j <= |s|
    ensures SkipSpaceBackward(Lower(s), lo, j) == SkipSpaceBackward(s, lo, j)
    decreases j
  {
    if lo < j {
      LowerCharKeepsSpace(s[j - 1]);
      if IsSpace(s[j - 1]) {
        SkipBackwardLower(s, lo, j - 1);
      }
    }
  }

  /** Trimming and lower-casing commute. */
  lemma TrimLowerCommute(s: string)
    ensures Trim(Lower(s)) == Lower(Trim(s))
  {
    var a := SkipSpaceForward(s, 0);
    SkipForwardLower(s, 0);
    SkipBackwardLower(s, a, |s|);
    var b := SkipSpaceBackward(s, a, |s|);
    assert Trim(Lower(s)) == Lower(s)[a..b];
    assert Lower(s)[a..b] == Lower(s[a..b]);
  }

  function DigitChar(d: nat): char
    requires d < 10
  {
    ('0' as int + d) as char
  }

  /** The decimal rendering of `n`, without sign or leading zeros. */
  function NatToString(n: nat): (r: string)
    ensures 1 <= |r| && (10 <= n ==> 2 <= |r|)
    decreases n
  {
    if n < 10 then [DigitChar(n)] else NatToString(n / 10) + [DigitChar(n % 10)]
  }

  /** Distinct numbers have distinct renderings. */
  lemma {:induction false} NatToStringInjective(a: nat, b: nat)
    requires NatToString(a) == NatToString(b)
    ensures a == b
    decreases a
  {
    var s := NatToString(a);
    if 10 <= a && 10 <= b {
      assert s[|s| - 1] == DigitChar(a % 10) == DigitChar(b % 10);
      assert NatToString(a / 10) == s[..|s| - 1] == NatToString(b / 10);
      NatToStringInjective(a / 10, b / 10);
    }
  }
}
